=== FILE: README.md ===
# Synapse AI tutor — a Dafny model of its message formatting, chat state and learner memory

Synapse is a programming tutor. A learner chats with an AI model through a web
front end, and a small Python backend forwards the conversation to the model
together with what it remembers about the learner. This project models four
parts of it in Dafny and proves their properties.

- **Inline formatting** (`FormattedText` component). A message is split into
  lines. An empty line becomes a no-break-space placeholder. Every other line is
  cut by the regex `` `([^`]+)` `` into code and text segments. Each text
  segment is then cut by the emphasis regex into plain, bold, italic,
  struck-through and underlined parts.
  - Modules: `InlineCode` (the code-span pass), `Emphasis` (the emphasis
    pass) and `FormattedText` (the lines, the class names and the component
    body).
- **Code blocks** (`MessageContent.parseContent`). A message is split by
  ```` ```(\w+)?\n([\s\S]*?)``` ```` into text parts and code parts. A code
  part holds the trimmed body and the language tag, `"javascript"` when there
  is no tag. Module `CodeBlocks`.
- **The chat screen** (`ChatInterface`). `TypingMarkdown` reveals an assistant
  reply one UTF-16 code unit per timeout; the model reveals one Unicode
  character per step. The screen keeps the message list, the
  input and the loading flag, which `sendMessage` and `handleTypingComplete`
  update. Module `ChatInterface`.
- **The backend** (`main.py`).
  - `update_user_memory` counts messages, records the time of the last session
    and extracts topics from the last user message by keyword.
  - `call_cerebras_api` appends the learner's context to the system prompt.
  - `chat` reads the context, calls the model and then updates the memory.

  Module `Backend`.

Each regex is modelled as a matcher at one index (`CodeSpanAt`, `EmphasisAt`,
`BlockAt`) and a leftmost search built on it (`NextCodeSpan`, `NextEmphasis`,
`NextBlock`). Each matcher has a declarative predicate of what a match is
(`IsCodeSpan`, `IsAlternativeMatch`, `IsBlock`), and lemmas prove the matcher
sound and complete against it. The `exec` loop of each pass is a `method` with
a `while` loop. It is proved equal to a recursive scan (`ScanCode`,
`ScanEmphasis`, `ScanBlocks`), and lemmas about that scan prove the pass
lossless, well formed and faithful. The React state of the chat screen and
the backend's `user_memory` dictionary are `class` fields, and their updates
are methods with `modifies` clauses.

## Model

| member | source | states |
|---|---|---|
| `Strings.Split` | root/src/app/FormattedText.tsx:124 | `content.split('\n')`: one piece per newline plus one; no piece contains a newline; the pieces joined by newlines give back the content |
| `Strings.Trim` | synapse/src/app/CodeInterface.tsx:33 | `String.prototype.trim`: the result is a slice of the input; the result has no ECMAScript white space or line terminator at either end; everything cut off is white space; the result is empty exactly when the input is all white space |
| `Strings.Lower` | synapse/src/backend/main.py:177 | `str.lower()`: same length, each character lower-cased (ASCII letters only) |
| `Strings.KeepNonEmpty` | root/src/app/FormattedText.tsx:110 | `.filter(Boolean)` on the class names: keeps exactly the non-empty names; the result is empty exactly when every name is empty |
| `Strings.KeepNonEmptySingle` | root/src/app/FormattedText.tsx:110 | one name is kept exactly when it is non-empty |
| `Strings.KeepNonEmptyAppend` | root/src/app/FormattedText.tsx:110 | filtering distributes over concatenation, so the kept names stay in their order and keep their count |
| `Strings.ContainsTransitive` | synapse/src/backend/main.py:177-185 | Python's substring operator `in` is transitive: text containing `b`, where `b` contains `c`, contains `c` |
| `InlineCode.CodeSpanAtIsMatch` | root/src/app/FormattedText.tsx:12 | the matcher at index `i` returns exactly the end of the one match of `` `([^`]+)` `` starting at `i`: a backtick, one or more non-backticks, a backtick |
| `InlineCode.NoCodeSpanInMeans` | root/src/app/FormattedText.tsx:12 | the executable predicate "no match in [a, b)" holds exactly when no index in the range starts a code span |
| `InlineCode.NextCodeSpanIsLeftmost` | root/src/app/FormattedText.tsx:16 | `exec` from `lastIdx` finds the leftmost code span at or after it, and there is none between; `null` means there is none up to the end |
| `InlineCode.SplitCodeSpans` | root/src/app/FormattedText.tsx:11-30 | the segment loop returns exactly the segments of the recursive scan, with the fallback for a line without segments |
| `InlineCode.ScanCodeSource` | root/src/app/FormattedText.tsx:16-26 | re-emitting each segment (code inside backticks) gives back the rest of the line from the scan's start |
| `InlineCode.ScanCodeWellFormed` | root/src/app/FormattedText.tsx:16-26 | no segment is empty; no code segment holds a backtick; two text segments never follow each other |
| `InlineCode.SplitCodeLossless` | root/src/app/FormattedText.tsx:11-30 | the segments of a line re-emit the line exactly |
| `InlineCode.SplitCodeWellFormed` | root/src/app/FormattedText.tsx:11-30 | the segments of a non-empty line are well formed; the empty line gives the single empty text segment of the fallback |
| `InlineCode.SplitCodePlain` | root/src/app/FormattedText.tsx:24-30 | a line is a single text segment exactly when no code span occurs in it, in particular when it has no backtick |
| `Emphasis.Rank` | root/src/app/FormattedText.tsx:56 | each delimiter pair has its position in the alternation |
| `Emphasis.DelimitedAtSound` | root/src/app/FormattedText.tsx:56 | the matcher of one alternative only returns an end where the opening delimiter, a non-empty body free of the closing delimiter's first character, and the closing delimiter occur |
| `Emphasis.DelimitedAtComplete` | root/src/app/FormattedText.tsx:56 | every such match of an alternative is the one its matcher returns |
| `Emphasis.EmphasisAtIsFirstMatch` | root/src/app/FormattedText.tsx:55-56 | at one index the first alternative of the alternation that matches wins: no alternative listed before it matches there; no result means none of the seven matches |
| `Emphasis.NoEmphasisInMeans` | root/src/app/FormattedText.tsx:56 | the executable predicate "no match in [a, b)" holds exactly when no alternative of the regex matches at any index in the range |
| `Emphasis.NextEmphasisIsLeftmost` | root/src/app/FormattedText.tsx:60 | `exec` from `lastIndex` finds the leftmost index where an alternative matches, with the winning alternative there |
| `Emphasis.ParseEmphasis` | root/src/app/FormattedText.tsx:57-96 | the part loop returns exactly the parts of the recursive token scan |
| `Emphasis.ScanEmphasisSource` | root/src/app/FormattedText.tsx:60-91 | re-emitting each token with its delimiters gives back the rest of the text |
| `Emphasis.ScanEmphasisWellFormed` | root/src/app/FormattedText.tsx:60-91 | plain tokens are non-empty; emphasised bodies are non-empty and free of their closing character; two plain tokens never follow each other |
| `Emphasis.ToPartStyles` | root/src/app/FormattedText.tsx:67-88 | plain text has no style; `***` is bold and italic, `**` and `__` bold, `*` and `_` italic, `~~` struck through, `<u>` underlined, and the part's text is the body |
| `Emphasis.EmphasisPartsFaithful` | root/src/app/FormattedText.tsx:57-98 | the parts come from a lossless, well-formed token scan, and there are no parts exactly when the text is empty |
| `Emphasis.EmphasisPartsPlain` | root/src/app/FormattedText.tsx:93-96 | a text is one plain token exactly when no alternative matches anywhere in it |
| `Emphasis.TripleStarIsBoldItalic` | root/src/app/FormattedText.tsx:67-69 | `***x***` becomes one bold-and-italic part holding `x`, not nested emphasis |
| `Emphasis.NoClosingCharNoMatch` | root/src/app/FormattedText.tsx:56 | no alternative matches at `q` when no closing-delimiter character (`*`, `~`, `_`, `<`) occurs from two characters after `q` on |
| `Emphasis.UnclosedDelimiterIsPlain` | root/src/app/FormattedText.tsx:93-96 | `**` followed by non-empty text with no delimiter character (`*`, `~`, `_`, `<`) is never closed and stays one plain part |
| `FormattedText.FormatText` | root/src/app/FormattedText.tsx:9-121 | `formatText` returns one element per code-span segment: a code element, the part spans, or the plain span of the fallback |
| `FormattedText.CodeIsVerbatim` | root/src/app/FormattedText.tsx:32-42 | code segments become code elements with their content verbatim; only text segments go through the emphasis pass |
| `FormattedText.PlainLine` | root/src/app/FormattedText.tsx:44-100 | a non-empty line with no code span and no emphasis renders as one unstyled part holding the line |
| `FormattedText.ClassName` | root/src/app/FormattedText.tsx:105-110 | the class list is empty exactly when the part has no style |
| `FormattedText.SpanClasses` | root/src/app/FormattedText.tsx:105-113 | a plain part gets no class attribute; `***x***` gets `"font-bold italic"` |
| `FormattedText.RenderLineOf` | root/src/app/FormattedText.tsx:130 | an empty line renders as the no-break-space placeholder, any other as `formatText(line)` |
| `FormattedText.Render` | root/src/app/FormattedText.tsx:123-133 | the component renders one paragraph per line of the content, in order |
| `FormattedText.ParagraphsPerLine` | root/src/app/FormattedText.tsx:124-131 | there are as many paragraphs as newlines plus one; the lines joined back give the content; a paragraph is the placeholder exactly when its line is empty |
| `CodeBlocks.FindFence` | synapse/src/app/CodeInterface.tsx:17 | the lazy `[\s\S]*?` stops at the first closing fence: the result is a fence, and there is none before it |
| `CodeBlocks.BlockAtSound` | synapse/src/app/CodeInterface.tsx:17 | the matcher at `i` only returns a block made of a fence, a word tag, a newline, a body with no fence and a closing fence |
| `CodeBlocks.BlockAtComplete` | synapse/src/app/CodeInterface.tsx:17 | every such block starting at `i` is the one the matcher returns |
| `CodeBlocks.NoBlockInMeans` | synapse/src/app/CodeInterface.tsx:17 | the executable predicate "no block in [a, b)" holds exactly when no index in the range starts a block |
| `CodeBlocks.NextBlockIsLeftmost` | synapse/src/app/CodeInterface.tsx:21 | `exec` from `lastIndex` finds the leftmost block at or after it; `null` means there is none up to the end |
| `CodeBlocks.ParseContent` | synapse/src/app/CodeInterface.tsx:15-49 | `parseContent` returns exactly the parts of the recursive block scan, or the single text part of the fallback |
| `CodeBlocks.ScanBlocksSource` | synapse/src/app/CodeInterface.tsx:21-46 | re-emitting each piece (a block as fence, tag, newline, body, fence) gives back the rest of the message |
| `CodeBlocks.ScanBlocksWellFormed` | synapse/src/app/CodeInterface.tsx:21-46 | gaps are non-empty; tags are word characters; bodies hold no fence; two gaps never follow each other |
| `CodeBlocks.ContentPartsFaithful` | synapse/src/app/CodeInterface.tsx:21-48 | the parts follow the lossless scan piece by piece: a text part per gap, a code part per block holding the trimmed body and the tag or `"javascript"`; the fallback applies to the empty message only |
| `CodeBlocks.ContentPartsPlain` | synapse/src/app/CodeInterface.tsx:40-48 | a message is one text part equal to itself exactly when the regex matches nowhere in it |
| `CodeBlocks.UnclosedFenceIsText` | synapse/src/app/CodeInterface.tsx:17-48 | a message in which a fence starts at one index at most, such as an unclosed fence, is one text part |
| `CodeBlocks.TaggedBlock` | synapse/src/app/CodeInterface.tsx:30-35 | a whole message that is one tagged block gives one code part with the trimmed body in the tag's language |
| `ChatInterface.TypingMarkdown.constructor` | synapse/src/app/ChatInterface.tsx:16-17 | the reveal starts with nothing displayed, at index 0 |
| `ChatInterface.TypingMarkdown.Effect` | synapse/src/app/ChatInterface.tsx:19-35 | when not typing the whole content is displayed; the completion callback is called exactly when typing has reached the end; otherwise nothing changes now |
| `ChatInterface.TypingMarkdown.Tick` | synapse/src/app/ChatInterface.tsx:26-29 | a timeout shows one more character: the index grows by one and the display is the prefix up to it |
| `ChatInterface.TypingMarkdown.StopTyping` | synapse/src/app/ChatInterface.tsx:218 | the parent clears the `isTyping` prop; the displayed text and the index are kept, and the class invariant holds |
| `ChatInterface.TypingMarkdown.TypeOut` | synapse/src/app/ChatInterface.tsx:19-35 | while typing, the chain of effects and timeouts ends with the whole content displayed and the completion callback called |
| `ChatInterface.Welcome` | synapse/src/app/ChatInterface.tsx:101-108 | the greeting is an assistant message that is not typing |
| `ChatInterface.WelcomeNamesLearner` | synapse/src/app/ChatInterface.tsx:104 | the greeting starts with "Hi ", then the learner's name, and ends with the language followed by "!" as its last character |
| `ChatInterface.ChatSession.constructor` | synapse/src/app/ChatInterface.tsx:101-111 | the list starts with the initial messages when given, an empty list included, else with the greeting; the input is empty, nothing is loading, nothing is typing |
| `ChatInterface.ChatSession.SetInput` | synapse/src/app/ChatInterface.tsx:267 | the text area sets the input and nothing else |
| `ChatInterface.ClearTyping` | synapse/src/app/ChatInterface.tsx:124-126 | the map keeps every message but the one at `index`, which stops typing |
| `ChatInterface.ChatSession.HandleTypingComplete` | synapse/src/app/ChatInterface.tsx:123-128 | the message at `index` stops typing and no message is the typing one any more |
| `ChatInterface.ClearTypingStopsAll` | synapse/src/app/ChatInterface.tsx:123-128 | when only the completed message was typing, no message is typing afterwards |
| `ChatInterface.ToApiMessages` | synapse/src/app/ChatInterface.tsx:152-155 | the request carries one entry per message, with its role name and content, in order |
| `ChatInterface.ShouldSend` | synapse/src/app/ChatInterface.tsx:132 | a message is sent only when the trimmed input is non-empty and no request is in flight |
| `ChatInterface.BlankInputIsNotSent` | synapse/src/app/ChatInterface.tsx:132 | a message is sent exactly when the input is not all white space and no request is in flight |
| `ChatInterface.ReplyMessage` | synapse/src/app/ChatInterface.tsx:172-192 | a reply becomes a typing assistant message with the reply's text; a failure becomes the fixed error text, not typing |
| `ChatInterface.ChatSession.SendMessage` | synapse/src/app/ChatInterface.tsx:130-197 | blank input or a request in flight changes nothing. Otherwise the request holds the old messages plus the user message, the demo user id and the learner's choices; the list grows by the user message and the reply or error; the input is cleared; loading ends; a reply becomes the typing message |
| `ChatInterface.RequestKeepsOrder` | synapse/src/app/ChatInterface.tsx:152-155 | the request keeps the conversation in order with the new user message last |
| `ChatInterface.ReplyIsLast` | synapse/src/app/ChatInterface.tsx:179-192 | after a send the user message is second to last and the reply, or the error text, is last |
| `Backend.LastUserMessage` | synapse/src/backend/main.py:176 | the content of the last message whose role is "user", or "" when there is none |
| `Backend.AddTopic` | synapse/src/backend/main.py:178-179 | a mentioned topic is appended once; an unmentioned or already recorded topic changes nothing |
| `Backend.AddTopicKeeps` | synapse/src/backend/main.py:177-185 | adding a topic keeps the old topics as a prefix and keeps them distinct; the topic is recorded exactly when it was before or it is mentioned |
| `Backend.LearnTopicsGrows` | synapse/src/backend/main.py:175-185 | topic extraction only appends, never records a topic twice, and adds only "loops", "functions" or "OOP" |
| `Backend.LearnTopicsRecorded` | synapse/src/backend/main.py:177-185 | each topic is recorded afterwards exactly when it was before or the lower-cased last user message contains one of its keywords |
| `Backend.LoopAlsoRecordsOOP` | synapse/src/backend/main.py:177-185 | a message containing "loop" also records "OOP", because "oop" is a substring of "loop" |
| `Backend.LearnUpdates` | synapse/src/backend/main.py:172-185 | an update counts one more message, records the session time, keeps what the learner struggles with, and only appends distinct topics |
| `Backend.Lookup` | synapse/src/backend/main.py:211 | `user_memory.get(user_id, None)`: the entry when the user is known, nothing otherwise |
| `Backend.MemoryStore.constructor` | synapse/src/backend/main.py:42 | the memory starts empty |
| `Backend.MemoryStore.UpdateUserMemory` | synapse/src/backend/main.py:162-185 | the user's entry becomes the learned update of the old entry, or of a new entry when there was none; every other entry is kept |
| `Backend.UpdateKeepsMemory` | synapse/src/backend/main.py:162-185 | an update keeps every entry's topics distinct and its message count positive, adds only the user's key, and leaves the other users' entries unchanged; a new user has one message and struggles with nothing |
| `Backend.SystemContent` | synapse/src/backend/main.py:103-119 | without an entry the system message is the tutor prompt; with one, the prompt is followed by the "Student Context" header |
| `Backend.ContextLines` | synapse/src/backend/main.py:110-119 | the context is the header followed by the topics, struggle and last-session lines in that order; each line is empty exactly when its field is falsy |
| `Backend.SecondRequestContext` | synapse/src/backend/main.py:110-119 | after a first update that named no topic, the context is the header and the last-session line only |
| `Backend.BuildApiMessages` | synapse/src/backend/main.py:122 | the system message comes first, followed by the conversation unchanged |
| `Backend.MemoryStore.Chat` | synapse/src/backend/main.py:205-231 | the system message uses the context read before the update; the answer is returned as it came; the memory is updated only when the model call succeeded |
| `Backend.FirstRequestHasNoContext` | synapse/src/backend/main.py:209-217 | a user's first request goes out with the bare tutor prompt |

## Left out

- Timers: the `setTimeout` and its cleanup in `TypingMarkdown` become explicit `Tick` and `Effect` calls. The 8 ms delay and the re-running of the effect on every render are not modelled. `TypeOut` stands for the chain of timeouts.
- `ChatInterface.TypingMarkdown.Effect`: may be run again after completion with the same state, which calls the callback again, as React would. The model does not claim the callback fires exactly once.
- Rendering: JSX elements, CSS classes other than the emphasis classes, `key` attributes, scrolling and focus are not modelled. The Markdown renderer used inside `TypingMarkdown`, the syntax highlighter of code parts and the copy-to-clipboard button are not modelled either.
- Message timestamps (`new Date()`) are left out of `ChatMessage`. The backend's clock becomes a `timestamp` parameter.
- HTTP: the `fetch` in `sendMessage` and the call to the model in `call_cerebras_api` are replaced by their outcome, an `Option<string>` parameter (`None` for any failure). The request payload, headers, API key, status codes and FastAPI's error mapping are not modelled. Asynchrony and interleaving of concurrent requests are not modelled.
- The tutor system prompt is a parameter of `SystemContent` and `Chat` rather than its 50-line literal.
- `Strings.Lower`: lower-cases ASCII letters only, while Python's `str.lower` covers all of Unicode. The keywords are ASCII, so only messages whose non-ASCII characters lower-case to ASCII letters (such as the Kelvin sign) could be classified differently.
- Strings are sequences of Unicode characters, not of JavaScript's UTF-16 code units. Every white-space character and delimiter involved lies in the Basic Multilingual Plane. So the splits, regex matches and trims produce the same pieces, and only the index values differ for text with astral characters. The typing reveal is the exception; see the next line.
- `ChatInterface.TypingMarkdown.Tick`: reveals one Unicode character per tick, where the source steps `currentIndex` through `content.length` and `content.slice(0, currentIndex + 1)`, one UTF-16 code unit at a time. For a reply with a character outside the Basic Multilingual Plane, the source needs one more tick per such character. It also shows an intermediate prefix ending in a lone high surrogate (`"a😀"` takes three ticks and shows `"a\uD83D"` on the second). The model takes two ticks and never shows half a character. `TypeOut` and `Effect` inherit this: their tick counts and intermediate displays are per character. Their final display, the whole content, is the same.
- The backend's request model has no `context` field, so the learner context that `sendMessage` posts is dropped there. The model keeps the frontend's field and the backend's request without it.
- `get_user_context`, the root and health routes, CORS and server start-up are not modelled.
- `user_memory.get` returns the stored dictionary itself, so the context passed to the model aliases the entry that is updated afterwards. The update happens after the call returns, so the model uses values.
- The emphasis and code-span parts do not keep their delimiters. Losslessness is therefore stated on the tokens and pieces of the scans (`TokensSource`, `SegmentsSource`, `PiecesSource`), which do keep them.
- main.tsx and ClientSynapse.tsx, which mount these components, are not part of this model.

=== FILE: Backend.dfy ===
/**
 * The tutor backend (main.py): the per-user learning memory that
 * `update_user_memory` keeps, the system message `call_cerebras_api` builds
 * from it, and the order of work in the `chat` endpoint. The HTTP call is
 * replaced by its outcome, a parameter, and the clock by a timestamp parameter.
 */
module Backend {
  import opened Optional
  import opened Strings

  /** A message of the conversation: `{"role": ..., "content": ...}`. */
  datatype Message = Message(role: string, content: string)

  /** A user's entry in `user_memory`. */
  datatype UserContext = UserContext(topicsLearned: seq<string>, strugglingWith: Option<string>,
                                     lastSession: Option<string>, totalMessages: nat)

  /** The entry created for a user seen for the first time (:165-170). */
  const NewContext: UserContext := UserContext([], None, None, 0)

  /** A body of the `/api/chat` endpoint. */
  datatype ChatRequest = ChatRequest(messages: seq<Message>, userId: string)

  // ---------------------------------------------------------------------------
  // Topic extraction (:175-185)
  // ---------------------------------------------------------------------------

  /**
   * `next((m.content for m in reversed(messages) if m.role == "user"), "")`:
   * the content of the last user message, or "" when there is none.
   */
  function LastUserMessage(ms: seq<Message>): (r: string)
    ensures (forall j :: 0 <= j < |ms| ==> ms[j].role != "user") ==> r == ""
    ensures forall i :: 0 <= i < |ms| && ms[i].role == "user" && (forall j :: i < j < |ms| ==> ms[j].role != "user")
                        ==> r == ms[i].content
    decreases |ms|
  {
    if ms == [] then ""
    else if ms[|ms| - 1].role == "user" then ms[|ms| - 1].content
    else
      var init := ms[..|ms| - 1];
      assert forall j :: 0 <= j < |init| ==> init[j] == ms[j];
      LastUserMessage(init)
  }

  /** `any(keyword in text for keyword in keywords)`, `in` being the substring operator. */
  predicate MentionsAny(text: string, keywords: seq<string>) {
    exists k :: 0 <= k < |keywords| && Contains(text, keywords[k])
  }

  const LoopKeywords: seq<string> := ["loop", "for", "while"]
  const FunctionKeywords: seq<string> := ["function", "def", "return"]
  const ClassKeywords: seq<string> := ["class", "object", "oop"]

  /** Appending a topic unless it is already recorded. */
  function AddTopic(topics: seq<string>, topic: string, mentioned: bool): (r: seq<string>)
    ensures mentioned && topic !in topics ==> r == topics + [topic]
    ensures !(mentioned && topic !in topics) ==> r == topics
  {
    if mentioned && topic !in topics then topics + [topic] else topics
  }

  /** The three checks of :177-185 on the lower-cased message, in order. */
  function LearnTopics(topics: seq<string>, message: string): seq<string> {
    var text := Lower(message);
    var afterLoops := AddTopic(topics, "loops", MentionsAny(text, LoopKeywords));
    var afterFunctions := AddTopic(afterLoops, "functions", MentionsAny(text, FunctionKeywords));
    AddTopic(afterFunctions, "OOP", MentionsAny(text, ClassKeywords))
  }

  /** A user's entry after one update at time `timestamp`. */
  function Learn(c: UserContext, ms: seq<Message>, timestamp: string): UserContext {
    c.(totalMessages := c.totalMessages + 1, lastSession := Some(timestamp),
       topicsLearned := LearnTopics(c.topicsLearned, LastUserMessage(ms)))
  }

  /** The entry of `userId`, or the new entry when there is none. */
  function ContextOf(memory: map<string, UserContext>, userId: string): UserContext {
    if userId in memory then memory[userId] else NewContext
  }

  /** `user_memory.get(user_id, None)`. */
  function Lookup(memory: map<string, UserContext>, userId: string): (r: Option<UserContext>)
    ensures r.Some? <==> userId in memory
    ensures r.Some? ==> r.value == memory[userId]
  {
    if userId in memory then Some(memory[userId]) else None
  }

  // ---------------------------------------------------------------------------
  // The system message (:103-122)
  // ---------------------------------------------------------------------------

  const ContextHeader: string := "\n\n\U{1F4CA} Student Context:\n"

  /** Python truthiness of an optional string: present and non-empty. */
  predicate Truthy(s: Option<string>) {
    s.Some? && s.value != ""
  }

  function TopicsLine(c: UserContext): string {
    if c.topicsLearned != [] then "- Topics covered: " + Join(c.topicsLearned, ", ") + "\n" else ""
  }

  function StrugglingLine(c: UserContext): string {
    if Truthy(c.strugglingWith) then "- Currently struggling with: " + c.strugglingWith.value + "\n" else ""
  }

  function SessionLine(c: UserContext): string {
    if Truthy(c.lastSession) then "- Last session: " + c.lastSession.value + "\n" else ""
  }

  /** `context_info`: the header, then one line per truthy field. */
  function ContextInfo(c: UserContext): string {
    ContextHeader + TopicsLine(c) + StrugglingLine(c) + SessionLine(c)
  }

  /**
   * The system message's content: the tutor prompt, followed, when the user has
   * an entry, by the context header and one line per truthy field.
   */
  function SystemContent(prompt: string, context: Option<UserContext>): (r: string)
    ensures context.None? ==> r == prompt
    ensures context.Some? ==> |r| >= |prompt| + |ContextHeader| && r[..|prompt|] == prompt
                              && r[|prompt| .. |prompt| + |ContextHeader|] == ContextHeader
  {
    match context
    case None => prompt
    case Some(c) =>
      var info := ContextInfo(c);
      assert (prompt + info)[..|prompt|] == prompt;
      assert (prompt + info)[|prompt| .. |prompt| + |ContextHeader|] == ContextHeader;
      prompt + info
  }

  /** `[system_message] + messages`. */
  function BuildApiMessages(system: string, ms: seq<Message>): (r: seq<Message>)
    ensures |r| == |ms| + 1 && r[0] == Message("system", system) && r[1..] == ms
  {
    [Message("system", system)] + ms
  }

  // ---------------------------------------------------------------------------
  // The memory and the endpoint
  // ---------------------------------------------------------------------------

  /** The module-level `user_memory` dictionary. */
  class MemoryStore {
    var userMemory: map<string, UserContext>

    constructor ()
      ensures userMemory == map[]
    {
      userMemory := map[];
    }

    /** `update_user_memory` (:162-185), with the formatted current time as `timestamp`. */
    method UpdateUserMemory(userId: string, ms: seq<Message>, timestamp: string)
      modifies this
      ensures userMemory == old(userMemory)[userId := Learn(ContextOf(old(userMemory), userId), ms, timestamp)]
    {
      ghost var start := ContextOf(userMemory, userId);
      ghost var initial := userMemory;
      if userId !in userMemory {
        userMemory := userMemory[userId := NewContext];
      }
      var entry := userMemory[userId];
      assert entry == start;
      entry := entry.(totalMessages := entry.totalMessages + 1);
      entry := entry.(lastSession := Some(timestamp));
      var lastUserMsg := LastUserMessage(ms);
      var text := Lower(lastUserMsg);
      var topics := entry.topicsLearned;
      ghost var before := topics;
      if MentionsAny(text, LoopKeywords) {
        if "loops" !in topics {
          topics := topics + ["loops"];
        }
      }
      ghost var afterLoops := topics;
      assert afterLoops == AddTopic(before, "loops", MentionsAny(text, LoopKeywords));
      if MentionsAny(text, FunctionKeywords) {
        if "functions" !in topics {
          topics := topics + ["functions"];
        }
      }
      ghost var afterFunctions := topics;
      assert afterFunctions == AddTopic(afterLoops, "functions", MentionsAny(text, FunctionKeywords));
      if MentionsAny(text, ClassKeywords) {
        if "OOP" !in topics {
          topics := topics + ["OOP"];
        }
      }
      assert topics == AddTopic(afterFunctions, "OOP", MentionsAny(text, ClassKeywords));
      assert topics == LearnTopics(before, lastUserMsg);
      ghost var learned := Learn(start, ms, timestamp);
      assert entry.(topicsLearned := topics) == learned;
      ghost var pending := userMemory;
      userMemory := userMemory[userId := entry.(topicsLearned := topics)];
      assert pending[userId := learned] == initial[userId := learned];
    }

    /**
     * `chat` (:205-231) with the tutor prompt as `prompt` and the model's answer
     * as `reply` (`None` when the call raised). Returns the messages sent to the
     * model and the answer. The context is read before the update, and the memory
     * is updated only when the call succeeded.
     */
    method Chat(prompt: string, request: ChatRequest, reply: Option<string>, timestamp: string)
      returns (sent: seq<Message>, response: Option<string>)
      modifies this
      ensures sent == BuildApiMessages(SystemContent(prompt, Lookup(old(userMemory), request.userId)), request.messages)
      ensures response == reply
      ensures reply.Some? ==> userMemory == old(userMemory)[request.userId :=
                                Learn(ContextOf(old(userMemory), request.userId), request.messages, timestamp)]
      ensures reply.None? ==> userMemory == old(userMemory)
    {
      var userContext := Lookup(userMemory, request.userId);
      var messagesDict := seq(|request.messages|, k requires 0 <= k < |request.messages| =>
                                Message(request.messages[k].role, request.messages[k].content));
      assert messagesDict == request.messages;
      sent := BuildApiMessages(SystemContent(prompt, userContext), messagesDict);
      response := reply;
      if reply.Some? {
        UpdateUserMemory(request.userId, request.messages, timestamp);
      }
    }
  }

  // ---------------------------------------------------------------------------
  // Properties of the update
  // ---------------------------------------------------------------------------

  predicate NoDuplicates(xs: seq<string>) {
    forall i, j :: 0 <= i < j < |xs| ==> xs[i] != xs[j]
  }

  /** Adding a topic keeps the recorded ones as a prefix, never duplicates, and adds it exactly when mentioned and new. */
  lemma AddTopicKeeps(topics: seq<string>, topic: string, mentioned: bool)
    requires NoDuplicates(topics)
    ensures var r := AddTopic(topics, topic, mentioned);
            && r[..|topics|] == topics && NoDuplicates(r)
            && (topic in r <==> topic in topics || mentioned)
            && (forall t :: t in r && t !in topics ==> t == topic)
  {
    var r := AddTopic(topics, topic, mentioned);
    assert r[..|topics|] == topics;
  }

  /** The topics the update can record. */
  const KnownTopics: seq<string> := ["loops", "functions", "OOP"]

  /**
   * `after` grew from `topics` by appending: `topics` is a prefix, nothing is
   * recorded twice, and every new topic is a known one.
   */
  predicate GrewFrom(after: seq<string>, topics: seq<string>) {
    && |topics| <= |after| && after[..|topics|] == topics && NoDuplicates(after)
    && (forall t :: t in after && t !in topics ==> t in KnownTopics)
  }

  lemma AddTopicGrows(topics: seq<string>, before: seq<string>, topic: string, mentioned: bool)
    requires GrewFrom(before, topics) && topic in KnownTopics
    ensures GrewFrom(AddTopic(before, topic, mentioned), topics)
  {
    var r := AddTopic(before, topic, mentioned);
    AddTopicKeeps(before, topic, mentioned);
    assert r[..|topics|] == r[..|before|][..|topics|];
  }

  /**
   * Learning topics only appends: the recorded topics stay as a prefix, no topic
   * is recorded twice, and every new topic is one of the three.
   */
  lemma {:induction false} LearnTopicsGrows(topics: seq<string>, message: string)
    requires NoDuplicates(topics)
    ensures GrewFrom(LearnTopics(topics, message), topics)
  {
    var text := Lower(message);
    var t1 := AddTopic(topics, "loops", MentionsAny(text, LoopKeywords));
    var t2 := AddTopic(t1, "functions", MentionsAny(text, FunctionKeywords));
    assert GrewFrom(topics, topics) by {
      assert topics[..|topics|] == topics;
    }
    AddTopicGrows(topics, topics, "loops", MentionsAny(text, LoopKeywords));
    AddTopicGrows(topics, t1, "functions", MentionsAny(text, FunctionKeywords));
    AddTopicGrows(topics, t2, "OOP", MentionsAny(text, ClassKeywords));
  }

  /**
   * Each of the three topics is recorded after learning exactly when it was
   * recorded before or the lower-cased message mentions one of its keywords.
   */
  lemma {:induction false} LearnTopicsRecorded(topics: seq<string>, message: string)
    requires NoDuplicates(topics)
    ensures var r := LearnTopics(topics, message);
            && ("loops" in r <==> "loops" in topics || MentionsAny(Lower(message), LoopKeywords))
            && ("functions" in r <==> "functions" in topics || MentionsAny(Lower(message), FunctionKeywords))
            && ("OOP" in r <==> "OOP" in topics || MentionsAny(Lower(message), ClassKeywords))
  {
    var text := Lower(message);
    var t1 := AddTopic(topics, "loops", MentionsAny(text, LoopKeywords));
    var t2 := AddTopic(t1, "functions", MentionsAny(text, FunctionKeywords));
    AddTopicKeeps(topics, "loops", MentionsAny(text, LoopKeywords));
    AddTopicKeeps(t1, "functions", MentionsAny(text, FunctionKeywords));
    AddTopicKeeps(t2, "OOP", MentionsAny(text, ClassKeywords));
  }

  /**
   * One update counts one more message, records the time, keeps what the user
   * struggles with, and only appends topics.
   */
  lemma LearnUpdates(c: UserContext, ms: seq<Message>, timestamp: string)
    requires NoDuplicates(c.topicsLearned)
    ensures var u := Learn(c, ms, timestamp);
            && u.totalMessages == c.totalMessages + 1
            && u.lastSession == Some(timestamp)
            && u.strugglingWith == c.strugglingWith
            && u.topicsLearned[..|c.topicsLearned|] == c.topicsLearned
            && NoDuplicates(u.topicsLearned)
  {
    LearnTopicsGrows(c.topicsLearned, LastUserMessage(ms));
  }

  /** Every entry in the memory has distinct topics and has counted at least one message. */
  ghost predicate MemoryValid(memory: map<string, UserContext>) {
    forall id :: id in memory ==> NoDuplicates(memory[id].topicsLearned) && memory[id].totalMessages >= 1
  }

  /** An update keeps the memory valid and leaves every other user's entry as it was. */
  lemma UpdateKeepsMemory(memory: map<string, UserContext>, userId: string, ms: seq<Message>, timestamp: string)
    requires MemoryValid(memory)
    ensures var after := memory[userId := Learn(ContextOf(memory, userId), ms, timestamp)];
            && MemoryValid(after)
            && after.Keys == memory.Keys + {userId}
            && (forall id :: id in memory && id != userId ==> after[id] == memory[id])
            && (userId !in memory ==> after[userId].totalMessages == 1 && after[userId].strugglingWith == None)
  {
    LearnUpdates(ContextOf(memory, userId), ms, timestamp);
  }

  /** The keyword "oop" is inside "loop": a message about loops records OOP as well. */
  lemma LoopAlsoRecordsOOP(topics: seq<string>, message: string)
    requires Contains(Lower(message), "loop")
    ensures "loops" in LearnTopics(topics, message) && "OOP" in LearnTopics(topics, message)
  {
    var text := Lower(message);
    assert StartsWithAt("loop", 1, "oop");
    assert Contains("loop", "oop");
    ContainsTransitive(text, "loop", "oop");
    assert ClassKeywords[2] == "oop";
    assert LoopKeywords[0] == "loop";
  }

  // ---------------------------------------------------------------------------
  // Properties of the system message
  // ---------------------------------------------------------------------------

  /**
   * A user's context adds the header and then, in this order, the topics joined
   * by ", ", what the user struggles with and the last session, each only when
   * it is truthy.
   */
  lemma ContextLines(prompt: string, c: UserContext)
    ensures SystemContent(prompt, Some(c)) == prompt + ContextInfo(c)
    ensures ContextInfo(c) == ContextHeader + TopicsLine(c) + StrugglingLine(c) + SessionLine(c)
    ensures TopicsLine(c) == "" <==> c.topicsLearned == []
    ensures StrugglingLine(c) == "" <==> !Truthy(c.strugglingWith)
    ensures SessionLine(c) == "" <==> !Truthy(c.lastSession)
  {
  }

  /**
   * The second request of a user whose first message named no topic: the
   * prompt, the header and the time of the first request only.
   */
  lemma SecondRequestContext(prompt: string, ms: seq<Message>, timestamp: string)
    requires timestamp != ""
    requires LearnTopics([], LastUserMessage(ms)) == []
    ensures SystemContent(prompt, Some(Learn(NewContext, ms, timestamp)))
            == prompt + (ContextHeader + ("- Last session: " + timestamp + "\n"))
  {
    var c := Learn(NewContext, ms, timestamp);
    assert TopicsLine(c) == "" && StrugglingLine(c) == "";
    assert ContextInfo(c) == ContextHeader + SessionLine(c);
  }

  /**
   * The `chat` endpoint: the first request of a user goes out with the bare
   * prompt, because the context is read before the update, and a failed call
   * leaves no trace in the memory.
   */
  lemma FirstRequestHasNoContext(prompt: string, memory: map<string, UserContext>, request: ChatRequest)
    requires request.userId !in memory
    ensures BuildApiMessages(SystemContent(prompt, Lookup(memory, request.userId)), request.messages)
            == [Message("system", prompt)] + request.messages
  {
  }
}

=== FILE: ChatInterface.dfy ===
/**
 * The chat screen (ChatInterface.tsx): the typing reveal of an assistant reply,
 * and the message list that `sendMessage` and `handleTypingComplete` update.
 * Timers become explicit calls: the reveal's timeout is `Tick`, a run of the
 * effect is `Effect`, and the backend's answer is a parameter of `SendMessage`.
 */
module ChatInterface {
  import opened Optional
  import opened Strings

  // ---------------------------------------------------------------------------
  // The typing reveal (:16-35)
  // ---------------------------------------------------------------------------

  /**
   * The state of one `TypingMarkdown`: its `content` and `isTyping` props, and
   * its `displayedContent` and `currentIndex` state.
   */
  class TypingMarkdown {
    const content: string
    var isTyping: bool
    var displayed: string
    var currentIndex: nat

    /** The index never passes the end of the content, and while typing the shown text is the prefix typed so far. */
    predicate Valid()
      reads this
    {
      currentIndex <= |content| && (isTyping ==> displayed == content[..currentIndex])
    }

    /** A fresh component: nothing displayed, at index 0. */
    constructor (content: string, isTyping: bool)
      ensures Valid()
      ensures this.content == content && this.isTyping == isTyping
      ensures displayed == "" && currentIndex == 0
    {
      this.content := content;
      this.isTyping := isTyping;
      displayed := "";
      currentIndex := 0;
    }

    /**
     * One run of the effect. When not typing, the whole content is displayed at
     * once. When typing with characters left, a timeout is scheduled and nothing
     * changes now. Otherwise the completion callback is called: `completed`
     * reports that call.
     */
    method Effect() returns (completed: bool)
      requires Valid()
      modifies this
      ensures Valid()
      ensures completed <==> isTyping && currentIndex >= |content|
      ensures !isTyping ==> displayed == content
      ensures isTyping ==> displayed == old(displayed)
      ensures isTyping == old(isTyping) && currentIndex == old(currentIndex)
    {
      completed := false;
      if !isTyping {
        displayed := content;
      } else if currentIndex < |content| {
      } else {
        completed := true;
      }
    }

    /** The scheduled timeout fires: one more character is shown. */
    method Tick()
      requires Valid() && isTyping && currentIndex < |content|
      modifies this
      ensures Valid()
      ensures currentIndex == old(currentIndex) + 1
      ensures displayed == content[..currentIndex]
      ensures isTyping
    {
      displayed := content[..currentIndex + 1];
      currentIndex := currentIndex + 1;
    }

    /** The parent clears `isTyping` (after `handleTypingComplete`). */
    method StopTyping()
      requires Valid()
      modifies this
      ensures Valid()
      ensures !isTyping && displayed == old(displayed) && currentIndex == old(currentIndex)
    {
      isTyping := false;
    }

    /**
     * The chain of effect runs and timeouts while typing: a tick per remaining
     * character, then the effect that calls the completion callback. At the end
     * the whole content is displayed.
     */
    method TypeOut() returns (completed: bool)
      requires Valid() && isTyping
      modifies this
      ensures Valid() && completed
      ensures currentIndex == |content| && displayed == content
      ensures old(currentIndex) <= currentIndex
    {
      completed := Effect();
      while !completed
        invariant Valid() && isTyping
        invariant old(currentIndex) <= currentIndex
        invariant completed <==> currentIndex >= |content|
        decreases |content| - currentIndex
      {
        Tick();
        completed := Effect();
      }
      assert content[..|content|] == content;
    }
  }

  // ---------------------------------------------------------------------------
  // The message list (:79-197)
  // ---------------------------------------------------------------------------

  datatype Role = User | Assistant

  /** A message of the list; its timestamp is left out. */
  datatype ChatMessage = ChatMessage(role: Role, content: string, isTyping: bool)

  /** A message as it is sent to the backend: role and content only. */
  datatype ApiMessage = ApiMessage(role: string, content: string)

  /** The `context` object of the request. */
  datatype LearnerContext = LearnerContext(userName: string, selectedLanguage: string,
                                           selectedDuration: string, selectedHours: string)

  /** The JSON body `sendMessage` posts to the chat endpoint. */
  datatype ChatRequest = ChatRequest(messages: seq<ApiMessage>, userId: string, context: LearnerContext)

  const DemoUserId: string := "demo_user_123"

  const ErrorText: string :=
    "Sorry, I encountered an error. Please make sure the backend server is running on http://localhost:8000"

  function RoleName(r: Role): string {
    match r
    case User => "user"
    case Assistant => "assistant"
  }

  /** The greeting the list starts with when no initial messages are given (:101-108). */
  function Welcome(userName: string, selectedLanguage: string): (m: ChatMessage)
    ensures m.role == Assistant && !m.isTyping
  {
    ChatMessage(Assistant, "Hi " + userName + "! I'm Synapse, your AI coding tutor. Let's start learning "
                           + selectedLanguage + "!", false)
  }

  /** `messages.map(m => ({role: m.role, content: m.content}))`. */
  function ToApiMessages(ms: seq<ChatMessage>): (r: seq<ApiMessage>)
    ensures |r| == |ms|
    ensures forall k :: 0 <= k < |ms| ==> r[k] == ApiMessage(RoleName(ms[k].role), ms[k].content)
  {
    seq(|ms|, k requires 0 <= k < |ms| => ApiMessage(RoleName(ms[k].role), ms[k].content))
  }

  /** The guard of :132: there is something to send besides whitespace, and no request is in flight. */
  predicate ShouldSend(input: string, isLoading: bool) {
    Trim(input) != "" && !isLoading
  }

  /** `handleTypingComplete(index)`'s map: message `index` stops typing, nothing else changes. */
  function ClearTyping(ms: seq<ChatMessage>, index: int): (r: seq<ChatMessage>)
    ensures |r| == |ms|
    ensures forall k :: 0 <= k < |ms| && k != index ==> r[k] == ms[k]
    ensures 0 <= index < |ms| ==> r[index] == ms[index].(isTyping := false)
  {
    seq(|ms|, k requires 0 <= k < |ms| => if k == index then ms[k].(isTyping := false) else ms[k])
  }

  /** What is appended for the backend's answer: the reply, typing, or the fixed error text. */
  function ReplyMessage(reply: Option<string>): (m: ChatMessage)
    ensures m.role == Assistant
    ensures m.isTyping <==> reply.Some?
    ensures reply.Some? ==> m.content == reply.value
    ensures reply.None? ==> m.content == ErrorText
  {
    match reply
    case Some(text) => ChatMessage(Assistant, text, true)
    case None => ChatMessage(Assistant, ErrorText, false)
  }

  /** The state of the chat screen. */
  class ChatSession {
    const userName: string
    const selectedLanguage: string
    const selectedDuration: string
    const selectedHours: string
    var messages: seq<ChatMessage>
    var input: string
    var isLoading: bool
    var typingMessageIndex: Option<nat>

    /** The list starts with the initial messages when given (an empty list included), else with the greeting. */
    constructor (userName: string, selectedLanguage: string, selectedDuration: string, selectedHours: string,
                 initialMessages: Option<seq<ChatMessage>>)
      ensures this.userName == userName && this.selectedLanguage == selectedLanguage
      ensures this.selectedDuration == selectedDuration && this.selectedHours == selectedHours
      ensures initialMessages.Some? ==> messages == initialMessages.value
      ensures initialMessages.None? ==> messages == [Welcome(userName, selectedLanguage)]
      ensures input == "" && !isLoading && typingMessageIndex == None
    {
      this.userName := userName;
      this.selectedLanguage := selectedLanguage;
      this.selectedDuration := selectedDuration;
      this.selectedHours := selectedHours;
      messages := if initialMessages.Some? then initialMessages.value else [Welcome(userName, selectedLanguage)];
      input := "";
      isLoading := false;
      typingMessageIndex := None;
    }

    /** The text area's `onChange`. */
    method SetInput(text: string)
      modifies this
      ensures input == text
      ensures messages == old(messages) && isLoading == old(isLoading) && typingMessageIndex == old(typingMessageIndex)
    {
      input := text;
    }

    /** `handleTypingComplete` (:123-128). */
    method HandleTypingComplete(index: int)
      modifies this
      ensures messages == ClearTyping(old(messages), index)
      ensures typingMessageIndex == None
      ensures input == old(input) && isLoading == old(isLoading)
    {
      messages := ClearTyping(messages, index);
      typingMessageIndex := None;
    }

    /**
     * `sendMessage` (:130-197) with the request's outcome as `reply`: the text of
     * the answer, or `None` when the request failed. Returns the request posted,
     * if any.
     */
    method SendMessage(reply: Option<string>) returns (request: Option<ChatRequest>)
      modifies this
      ensures !old(ShouldSend(input, isLoading)) ==>
                && request == None
                && messages == old(messages) && input == old(input) && isLoading == old(isLoading)
                && typingMessageIndex == old(typingMessageIndex)
      ensures old(ShouldSend(input, isLoading)) ==>
                var userMessage := ChatMessage(User, old(input), false);
                && request == Some(ChatRequest(ToApiMessages(old(messages) + [userMessage]), DemoUserId,
                                               LearnerContext(userName, selectedLanguage, selectedDuration, selectedHours)))
                && messages == old(messages) + [userMessage, ReplyMessage(reply)]
                && input == "" && !isLoading
                && typingMessageIndex == (if reply.Some? then Some(|messages| - 1) else old(typingMessageIndex))
    {
      if Trim(input) == "" || isLoading {
        return None;
      }
      var userMessage := ChatMessage(User, input, false);
      messages := messages + [userMessage];
      input := "";
      isLoading := true;
      request := Some(ChatRequest(ToApiMessages(messages), DemoUserId,
                                  LearnerContext(userName, selectedLanguage, selectedDuration, selectedHours)));
      if reply.Some? {
        messages := messages + [ChatMessage(Assistant, reply.value, true)];
        typingMessageIndex := Some(|messages| - 1);
      } else {
        messages := messages + [ChatMessage(Assistant, ErrorText, false)];
      }
      isLoading := false;
    }
  }

  // ---------------------------------------------------------------------------
  // Properties of the transitions
  // ---------------------------------------------------------------------------

  /** Input made of whitespace only, or a request in flight, sends nothing. */
  lemma BlankInputIsNotSent(input: string, isLoading: bool)
    ensures ShouldSend(input, isLoading) <==> !isLoading && !AllJsWhitespace(input)
  {
  }

  /**
   * The request carries the whole conversation in order, the new user message
   * last, each message reduced to its role and content.
   */
  lemma RequestKeepsOrder(ms: seq<ChatMessage>, input: string)
    ensures var api := ToApiMessages(ms + [ChatMessage(User, input, false)]);
            && |api| == |ms| + 1
            && api[..|ms|] == ToApiMessages(ms)
            && api[|ms|] == ApiMessage("user", input)
  {
  }

  /**
   * After a successful send, the typing index names the last message, which is
   * the assistant's reply and is typing; after a failure the last message is the
   * error text and is not typing.
   */
  lemma ReplyIsLast(ms: seq<ChatMessage>, userMessage: ChatMessage, reply: Option<string>)
    ensures var after := ms + [userMessage, ReplyMessage(reply)];
            && after[|after| - 1].role == Assistant
            && (reply.Some? ==> after[|after| - 1] == ChatMessage(Assistant, reply.value, true))
            && (reply.None? ==> after[|after| - 1] == ChatMessage(Assistant, ErrorText, false))
            && after[|after| - 2] == userMessage
  {
  }

  /** Completing the typing of a message leaves no message typing when it was the only one typing. */
  lemma ClearTypingStopsAll(ms: seq<ChatMessage>, index: int)
    requires forall k :: 0 <= k < |ms| && k != index ==> !ms[k].isTyping
    ensures forall k :: 0 <= k < |ms| ==> !ClearTyping(ms, index)[k].isTyping
  {
  }

  /** The greeting names the learner and the chosen language. */
  lemma WelcomeNamesLearner(userName: string, selectedLanguage: string)
    ensures var text := Welcome(userName, selectedLanguage).content;
            && text[..3] == "Hi "
            && text[3 .. 3 + |userName|] == userName
            && text[|text| - 1 - |selectedLanguage| .. |text| - 1] == selectedLanguage
            && text[|text| - 1] == '!'
  {
  }
}

=== FILE: CodeBlocks.dfy ===
/**
 * `parseContent` of the `MessageContent` component (CodeInterface.tsx): a chat
 * message is cut into text and fenced code blocks by the global regex
 * /```(\w+)?\n([\s\S]*?)```/g. A code block carries its body trimmed and its
 * language: the tag after the opening fence, or "javascript" when there is none.
 *
 * As for the inline-code pass of the formatter, the regex is a ghost predicate
 * on the match at one index, a compiled function proved to agree with it and a
 * leftmost search; the `while (regex.exec(...))` loop is a method proved equal to
 * a specification function, whose properties are the lemmas below.
 */
module CodeBlocks {
  import opened Optional
  import opened Strings
  import opened Sequences

  /** The regex class \w: ASCII letters, digits and the underscore. */
  predicate IsWordChar(c: char) {
    ('A' <= c <= 'Z') || ('a' <= c <= 'z') || ('0' <= c <= '9') || c == '_'
  }

  /** A fence of three backticks begins at index `i`. */
  predicate FenceAt(s: string, i: nat) {
    i + 3 <= |s| && s[i] == '`' && s[i + 1] == '`' && s[i + 2] == '`'
  }

  /** Index of the first non-word character of `s` at or after `a`, or `|s|`. */
  function SkipWord(s: string, a: nat): (b: nat)
    requires a <= |s|
    ensures a <= b <= |s|
    ensures forall k :: a <= k < b ==> IsWordChar(s[k])
    ensures b < |s| ==> !IsWordChar(s[b])
    decreases |s| - a
  {
    if a < |s| && IsWordChar(s[a]) then SkipWord(s, a + 1) else a
  }

  /** Index of the first fence at or after `from`, or `|s|` when there is none. */
  function FindFence(s: string, from: nat): (k: nat)
    requires from <= |s|
    ensures from <= k <= |s|
    ensures k < |s| ==> FenceAt(s, k)
    ensures forall q :: from <= q < k ==> !FenceAt(s, q)
    decreases |s| - from
  {
    if from == |s| || FenceAt(s, from) then from else FindFence(s, from + 1)
  }

  /**
   * The match `exec` reports at index `i`: an opening fence, a tag of word
   * characters ending at `tagEnd`, a newline, and a body ending at `bodyEnd`
   * where the closing fence begins. `(\w+)?` must take every word character,
   * since a word character cannot match the newline, and the lazy body stops at
   * the first fence after the newline.
   */
  ghost predicate IsBlock(s: string, i: nat, tagEnd: nat, bodyEnd: nat) {
    && FenceAt(s, i) && i + 3 <= tagEnd < bodyEnd + 1 && bodyEnd < |s|
    && (forall k :: i + 3 <= k < tagEnd ==> IsWordChar(s[k])) && s[tagEnd] == '\n'
    && FenceAt(s, bodyEnd)
    && forall q :: tagEnd + 1 <= q < bodyEnd ==> !FenceAt(s, q)
  }

  /** Where the tag and the body of a block end. */
  datatype Block = Block(tagEnd: nat, bodyEnd: nat)

  /** The code block that begins at `i`, if one does. */
  function BlockAt(s: string, i: nat): (r: Option<Block>)
    ensures r.Some? ==> i + 3 <= r.value.tagEnd < r.value.bodyEnd && r.value.bodyEnd + 3 <= |s|
  {
    if FenceAt(s, i) then
      var t := SkipWord(s, i + 3);
      if t < |s| && s[t] == '\n' then
        var b := FindFence(s, t + 1);
        if b < |s| then Some(Block(t, b)) else None
      else None
    else None
  }

  /** What `BlockAt` finds is the regex's match at `i`. */
  lemma BlockAtSound(s: string, i: nat)
    ensures BlockAt(s, i).Some? ==> IsBlock(s, i, BlockAt(s, i).value.tagEnd, BlockAt(s, i).value.bodyEnd)
  {
  }

  /** `BlockAt` finds every match of the regex at `i`: there is at most one. */
  lemma BlockAtComplete(s: string, i: nat, tagEnd: nat, bodyEnd: nat)
    requires IsBlock(s, i, tagEnd, bodyEnd)
    ensures BlockAt(s, i) == Some(Block(tagEnd, bodyEnd))
  {
    assert SkipWord(s, i + 3) == tagEnd;
    assert FindFence(s, tagEnd + 1) == bodyEnd;
  }

  /** No code block begins at an index in [a, b). */
  predicate NoBlockIn(s: string, a: nat, b: nat)
    decreases b - a
  {
    a >= b || (BlockAt(s, a).None? && NoBlockIn(s, a + 1, b))
  }

  /** `NoBlockIn` says that the regex matches nowhere in [a, b). */
  lemma {:induction false} NoBlockInMeans(s: string, a: nat, b: nat)
    ensures NoBlockIn(s, a, b) <==> forall q: nat, t: nat, e: nat :: a <= q < b ==> !IsBlock(s, q, t, e)
    decreases b - a
  {
    if a < b {
      NoBlockInMeans(s, a + 1, b);
      BlockAtSound(s, a);
      forall t: nat, e: nat | IsBlock(s, a, t, e)
        ensures BlockAt(s, a).Some?
      {
        BlockAtComplete(s, a, t, e);
      }
    }
  }

  /** A block the search finds: where it starts, and where its tag and its body end. */
  datatype Found = Found(start: nat, tagEnd: nat, bodyEnd: nat)

  /** The fences, the tag and the body of a found block lie inside `s` in this order. */
  predicate InBounds(s: string, f: Found) {
    f.start + 3 <= f.tagEnd < f.bodyEnd && f.bodyEnd + 3 <= |s|
  }

  /** `codeBlockRegex.exec(text)` with `lastIndex == from`: the block found by scanning from `from`. */
  function NextBlock(s: string, from: nat): (r: Option<Found>)
    requires from <= |s|
    ensures r.Some? ==> from <= r.value.start && InBounds(s, r.value)
    decreases |s| - from
  {
    if from == |s| then None
    else match BlockAt(s, from)
      case Some(b) => Some(Found(from, b.tagEnd, b.bodyEnd))
      case None => NextBlock(s, from + 1)
  }

  /** `NextBlock` is the leftmost match at or after `from`, and `None` exactly when there is none. */
  lemma {:induction false} NextBlockIsLeftmost(s: string, from: nat)
    requires from <= |s|
    ensures var r := NextBlock(s, from);
            && (r.Some? ==> BlockAt(s, r.value.start) == Some(Block(r.value.tagEnd, r.value.bodyEnd))
                            && NoBlockIn(s, from, r.value.start))
            && (r.None? ==> NoBlockIn(s, from, |s|))
    decreases |s| - from
  {
    if from < |s| && BlockAt(s, from).None? {
      NextBlockIsLeftmost(s, from + 1);
    }
  }

  /** Scanning from `from` skips a stretch in which no match begins. */
  lemma {:induction false} NextBlockSkips(s: string, from: nat, p: nat)
    requires from <= p <= |s| && NoBlockIn(s, from, p)
    ensures NextBlock(s, from) == NextBlock(s, p)
    decreases p - from
  {
    if from < p {
      NextBlockSkips(s, from + 1, p);
    }
  }

  // ---------------------------------------------------------------------------
  // The scan
  // ---------------------------------------------------------------------------

  /** What the loop finds: text between blocks, or a block's tag (`match[1]`) and raw body (`match[2]`). */
  datatype Piece = Gap(text: string) | Fenced(tag: string, body: string)

  /** The characters a piece stands for: a block is its fences, its tag, the newline and its body. */
  function PieceSource(p: Piece): string {
    match p
    case Gap(t) => t
    case Fenced(tag, body) => "```" + tag + "\n" + body + "```"
  }

  function PiecesSource(ps: seq<Piece>): string
    decreases |ps|
  {
    if ps == [] then "" else PieceSource(ps[0]) + PiecesSource(ps[1..])
  }

  /** The piece for a block the search found. */
  function BlockPiece(s: string, f: Found): Piece
    requires InBounds(s, f)
  {
    Fenced(s[f.start + 3 .. f.tagEnd], s[f.tagEnd + 1 .. f.bodyEnd])
  }

  /** One step of the scan: the piece found at a position, and the position after it. */
  datatype Step = Step(piece: Piece, next: nat)

  /**
   * The piece the loop finds at `from`: the text up to the next block, or the
   * block itself when it starts at `from`, or the rest of the message.
   */
  function BlockStep(s: string, from: nat): (r: Step)
    requires from < |s|
    ensures from < r.next <= |s|
  {
    match NextBlock(s, from)
    case None => Step(Gap(s[from..]), |s|)
    case Some(f) =>
      if from < f.start then Step(Gap(s[from .. f.start]), f.start)
      else Step(BlockPiece(s, f), f.bodyEnd + 3)
  }

  /** The pieces the loop finds in `s[from..]` (`lastIndex == from`). */
  function ScanBlocks(s: string, from: nat): seq<Piece>
    requires from <= |s|
    decreases |s| - from
  {
    if from == |s| then []
    else
      var step := BlockStep(s, from);
      [step.piece] + ScanBlocks(s, step.next)
  }

  /** A part of a message as `parseContent` returns it. */
  datatype Part = TextPart(content: string) | CodePart(content: string, language: string)

  /** The language of a block without a tag. */
  const DefaultLanguage: string := "javascript"

  /** The part pushed for a piece: a block's body is trimmed and its language defaults. */
  function ToPart(p: Piece): Part {
    match p
    case Gap(t) => TextPart(t)
    case Fenced(tag, body) => CodePart(Trim(body), if tag == "" then DefaultLanguage else tag)
  }

  function ToParts(ps: seq<Piece>): seq<Part> {
    seq(|ps|, k requires 0 <= k < |ps| => ToPart(ps[k]))
  }

  /** The result of `parseContent(text)`, including the fallback for an empty list. */
  function ContentParts(text: string): seq<Part> {
    var parts := ToParts(ScanBlocks(text, 0));
    if parts == [] then [TextPart(text)] else parts
  }

  // ---------------------------------------------------------------------------
  // The loop
  // ---------------------------------------------------------------------------

  /** One round of the loop: the text before the next block, if any, then the block. */
  lemma ScanBlocksRound(s: string, from: nat, f: Found)
    requires from <= |s| && NextBlock(s, from) == Some(f)
    ensures from < f.start ==> ScanBlocks(s, from) == [Gap(s[from .. f.start])] + ScanBlocks(s, f.start)
    ensures ScanBlocks(s, f.start) == [BlockPiece(s, f)] + ScanBlocks(s, f.bodyEnd + 3)
  {
    NextBlockIsLeftmost(s, from);
    NextBlockSkips(s, from, f.start);
    ScanBlocksAtBlock(s, f);
  }

  /** Where the search finds a block at the scan's position, the scan goes on after the block. */
  lemma ScanBlocksAtBlock(s: string, f: Found)
    requires f.start <= |s| && NextBlock(s, f.start) == Some(f)
    ensures ScanBlocks(s, f.start) == [BlockPiece(s, f)] + ScanBlocks(s, f.bodyEnd + 3)
  {
    assert BlockStep(s, f.start) == Step(BlockPiece(s, f), f.bodyEnd + 3);
  }

  /** After the last block, the scan is the rest of the message. */
  lemma ScanBlocksRest(s: string, from: nat)
    requires from < |s| && NextBlock(s, from).None?
    ensures ScanBlocks(s, from) == [Gap(s[from..])]
  {
  }

  /** The loop's invariant survives a round: what is pushed plus the scan after the block is still the whole scan. */
  lemma RoundKeepsScan(s: string, from: nat, before: seq<Piece>, after: seq<Piece>, total: seq<Piece>, f: Found, next: nat)
    requires from <= |s| && NextBlock(s, from) == Some(f) && next == f.bodyEnd + 3
    requires before + ScanBlocks(s, from) == total
    requires after == before + (if from < f.start then [Gap(s[from .. f.start])] else []) + [BlockPiece(s, f)]
    ensures after + ScanBlocks(s, next) == total
  {
    var block := BlockPiece(s, f);
    ScanBlocksRound(s, from, f);
    if from < f.start {
      PushedGapAndMatch(before, after, Gap(s[from .. f.start]), block,
                        ScanBlocks(s, from), ScanBlocks(s, f.start), ScanBlocks(s, f.bodyEnd + 3));
    } else {
      PushedMatch(before, after, block, ScanBlocks(s, from), ScanBlocks(s, f.bodyEnd + 3));
    }
  }

  lemma ToPartsPush(ps: seq<Piece>, p: Piece)
    ensures ToParts(ps + [p]) == ToParts(ps) + [ToPart(p)]
  {
  }

  lemma ToPartsJoin(ps: seq<Piece>, rest: seq<Piece>)
    ensures ToParts(ps + rest) == ToParts(ps) + ToParts(rest)
  {
  }

  /**
   * One round of the loop of `parseContent`: the text before the block, when
   * there is any, then the block with its body trimmed and its language.
   */
  method PushRound(text: string, lastIndex: nat, f: Found, parts: seq<Part>,
                   ghost pieces: seq<Piece>, ghost total: seq<Piece>)
    returns (out: seq<Part>, ghost outPieces: seq<Piece>, next: nat)
    requires lastIndex <= |text| && NextBlock(text, lastIndex) == Some(f)
    requires pieces + ScanBlocks(text, lastIndex) == total && parts == ToParts(pieces)
    ensures next == f.bodyEnd + 3 && lastIndex < next <= |text|
    ensures outPieces + ScanBlocks(text, next) == total && out == ToParts(outPieces)
  {
    out, outPieces := parts, pieces;
    if f.start > lastIndex {
      var gap := Gap(text[lastIndex .. f.start]);
      ToPartsPush(outPieces, gap);
      outPieces := outPieces + [gap];
      out := out + [TextPart(text[lastIndex .. f.start])];
    }
    var block := BlockPiece(text, f);
    ToPartsPush(outPieces, block);
    outPieces := outPieces + [block];
    out := out + [CodePart(Trim(block.body), if block.tag == "" then DefaultLanguage else block.tag)];
    next := f.bodyEnd + 3;
    RoundKeepsScan(text, lastIndex, pieces, outPieces, total, f, next);
  }

  /** `parseContent` (CodeInterface.tsx:15-49): the `exec` loop, the remaining text, and the fallback. */
  method ParseContent(text: string) returns (parts: seq<Part>)
    ensures parts == ContentParts(text)
  {
    parts := [];
    var lastIndex := 0;
    var found := NextBlock(text, lastIndex);
    ghost var pieces: seq<Piece> := [];
    ghost var total := ScanBlocks(text, 0);
    while found.Some?
      invariant lastIndex <= |text|
      invariant found == NextBlock(text, lastIndex)
      invariant pieces + ScanBlocks(text, lastIndex) == total
      invariant parts == ToParts(pieces)
      decreases |text| - lastIndex
    {
      parts, pieces, lastIndex := PushRound(text, lastIndex, found.value, parts, pieces, total);
      found := NextBlock(text, lastIndex);
    }
    if lastIndex < |text| {
      ScanBlocksRest(text, lastIndex);
      ToPartsPush(pieces, Gap(text[lastIndex..]));
      parts := parts + [TextPart(text[lastIndex..])];
      pieces := pieces + [Gap(text[lastIndex..])];
    }
    ToPartsJoin(pieces, ScanBlocks(text, lastIndex));
    if |parts| == 0 {
      parts := [TextPart(text)];
    }
  }

  // ---------------------------------------------------------------------------
  // What the scan finds at each step
  // ---------------------------------------------------------------------------

  /**
   * A gap found at `from` is the stretch of the message up to the next block,
   * or to the end, and no block begins inside it.
   */
  lemma BlockStepGap(s: string, from: nat)
    requires from < |s|
    ensures var step := BlockStep(s, from);
            step.piece.Gap? ==>
              && step.piece.text == s[from .. step.next]
              && NoBlockIn(s, from, step.next)
              && (step.next == |s| || BlockAt(s, step.next).Some?)
  {
    NextBlockIsLeftmost(s, from);
    assert s[from .. |s|] == s[from..];
  }

  /** A block found at `from` is the regex's match at `from`. */
  lemma BlockStepFenced(s: string, from: nat)
    requires from < |s|
    ensures var step := BlockStep(s, from);
            step.piece.Fenced? ==>
              && NextBlock(s, from).Some?
              && var f := NextBlock(s, from).value;
              && f.start == from && IsBlock(s, from, f.tagEnd, f.bodyEnd)
              && step == Step(BlockPiece(s, f), f.bodyEnd + 3)
  {
    NextBlockIsLeftmost(s, from);
    BlockAtSound(s, from);
  }

  /** A block stands for exactly the characters the regex matched. */
  lemma BlockPieceSource(s: string, f: Found)
    requires IsBlock(s, f.start, f.tagEnd, f.bodyEnd)
    ensures s[f.start .. f.bodyEnd + 3] == PieceSource(BlockPiece(s, f))
  {
    var tag, body := s[f.start + 3 .. f.tagEnd], s[f.tagEnd + 1 .. f.bodyEnd];
    assert s[f.start .. f.start + 3] == "```";
    assert s[f.tagEnd .. f.tagEnd + 1] == "\n";
    assert s[f.bodyEnd .. f.bodyEnd + 3] == "```";
    assert s[f.start .. f.bodyEnd + 3]
        == s[f.start .. f.start + 3] + s[f.start + 3 .. f.tagEnd] + s[f.tagEnd .. f.tagEnd + 1]
           + s[f.tagEnd + 1 .. f.bodyEnd] + s[f.bodyEnd .. f.bodyEnd + 3];
    assert BlockPiece(s, f) == Fenced(tag, body);
  }

  /** A stretch of text in which no fence begins. */
  predicate NoFence(x: string) {
    forall k :: 0 <= k < |x| ==> !FenceAt(x, k)
  }

  /** A block's tag is made of word characters, and its body holds no fence. */
  lemma BlockPieceWellFormed(s: string, f: Found)
    requires IsBlock(s, f.start, f.tagEnd, f.bodyEnd)
    ensures var p := BlockPiece(s, f);
            (forall k :: 0 <= k < |p.tag| ==> IsWordChar(p.tag[k])) && NoFence(p.body)
  {
    var p := BlockPiece(s, f);
    forall k | 0 <= k < |p.tag|
      ensures IsWordChar(p.tag[k])
    {
      assert p.tag[k] == s[f.start + 3 + k];
    }
    forall k | 0 <= k < |p.body|
      ensures !FenceAt(p.body, k)
    {
      var q := f.tagEnd + 1 + k;
      if k + 3 <= |p.body| {
        assert p.body[k] == s[q] && p.body[k + 1] == s[q + 1] && p.body[k + 2] == s[q + 2];
        assert !FenceAt(s, q);
      }
    }
  }

  /** The step at `from` stands for exactly the characters it passes over. */
  lemma BlockStepSource(s: string, from: nat)
    requires from < |s|
    ensures s[from .. BlockStep(s, from).next] == PieceSource(BlockStep(s, from).piece)
  {
    var step := BlockStep(s, from);
    if step.piece.Gap? {
      BlockStepGap(s, from);
    } else {
      BlockStepFenced(s, from);
      BlockPieceSource(s, NextBlock(s, from).value);
    }
  }

  /** The step at `from` finds a non-empty gap, or a block with a word tag and a body without a fence. */
  lemma BlockStepWellFormed(s: string, from: nat)
    requires from < |s|
    ensures var p := BlockStep(s, from).piece;
            && (p.Gap? ==> p.text != [])
            && (p.Fenced? ==> (forall k :: 0 <= k < |p.tag| ==> IsWordChar(p.tag[k])) && NoFence(p.body))
  {
    var step := BlockStep(s, from);
    if step.piece.Gap? {
      BlockStepGap(s, from);
    } else {
      BlockStepFenced(s, from);
      BlockPieceWellFormed(s, NextBlock(s, from).value);
    }
  }

  /** A gap that stops before the end of the message is followed by a block. */
  lemma BlockStepGapThenFenced(s: string, from: nat)
    requires from < |s|
    requires BlockStep(s, from).piece.Gap? && BlockStep(s, from).next < |s|
    ensures BlockStep(s, BlockStep(s, from).next).piece.Fenced?
  {
    BlockStepGap(s, from);
  }

  /** A non-empty scan is its first step followed by the scan after it. */
  lemma ScanBlocksUnfold(s: string, from: nat)
    requires from < |s|
    ensures var step := BlockStep(s, from);
            && ScanBlocks(s, from) != []
            && ScanBlocks(s, from)[0] == step.piece
            && ScanBlocks(s, from)[1..] == ScanBlocks(s, step.next)
  {
    var step := BlockStep(s, from);
    assert ([step.piece] + ScanBlocks(s, step.next))[1..] == ScanBlocks(s, step.next);
  }

  // ---------------------------------------------------------------------------
  // Properties of the scan
  // ---------------------------------------------------------------------------

  /** The scan is lossless: putting every block back between its fences gives `s[from..]`. */
  lemma {:induction false} ScanBlocksSource(s: string, from: nat)
    requires from <= |s|
    ensures PiecesSource(ScanBlocks(s, from)) == s[from..]
    decreases |s| - from
  {
    if from < |s| {
      var next := BlockStep(s, from).next;
      ScanBlocksSource(s, next);
      BlockStepSource(s, from);
      ScanBlocksUnfold(s, from);
      PiecesSourceCons(s, from, next, ScanBlocks(s, from));
    }
  }

  lemma PiecesSourceCons(s: string, from: nat, next: nat, ps: seq<Piece>)
    requires ps != [] && from <= next <= |s| && s[from .. next] == PieceSource(ps[0])
    requires PiecesSource(ps[1..]) == s[next..]
    ensures PiecesSource(ps) == s[from..]
  {
    SliceSplit(s, from, next);
  }

  /** Gaps are non-empty and never touch; tags are word characters; bodies hold no fence. */
  ghost predicate WellFormedPieces(ps: seq<Piece>) {
    && (forall k :: 0 <= k < |ps| && ps[k].Gap? ==> ps[k].text != [])
    && (forall k :: 0 <= k < |ps| && ps[k].Fenced? ==>
          (forall j :: 0 <= j < |ps[k].tag| ==> IsWordChar(ps[k].tag[j])) && NoFence(ps[k].body))
    && (forall k :: 0 <= k < |ps| - 1 ==> ps[k].Fenced? || ps[k + 1].Fenced?)
  }

  lemma WellFormedPiecesCons(ps: seq<Piece>)
    requires ps != []
    requires ps[0].Gap? ==> ps[0].text != []
    requires ps[0].Fenced? ==> (forall j :: 0 <= j < |ps[0].tag| ==> IsWordChar(ps[0].tag[j])) && NoFence(ps[0].body)
    requires WellFormedPieces(ps[1..])
    requires |ps| > 1 && ps[0].Gap? ==> ps[1..][0].Fenced?
    ensures WellFormedPieces(ps)
  {
    var rest := ps[1..];
    forall k | 0 < k < |ps|
      ensures ps[k] == rest[k - 1]
    {
    }
  }

  lemma {:induction false} ScanBlocksWellFormed(s: string, from: nat)
    requires from <= |s|
    ensures WellFormedPieces(ScanBlocks(s, from))
    decreases |s| - from
  {
    if from < |s| {
      var next := BlockStep(s, from).next;
      ScanBlocksWellFormed(s, next);
      BlockStepWellFormed(s, from);
      ScanBlocksUnfold(s, from);
      if next < |s| {
        ScanBlocksUnfold(s, next);
        if BlockStep(s, from).piece.Gap? {
          BlockStepGapThenFenced(s, from);
        }
      }
      WellFormedPiecesCons(ScanBlocks(s, from));
    }
  }

  /**
   * The parts of a message: every text part is a gap of the scan, every code
   * part holds its block's body trimmed and its tag, or "javascript" when the
   * block has no tag. The scan is lossless and well formed, and the fallback
   * applies to the empty message only.
   */
  lemma ContentPartsFaithful(s: string)
    ensures PiecesSource(ScanBlocks(s, 0)) == s
    ensures WellFormedPieces(ScanBlocks(s, 0))
    ensures s != [] ==> ContentParts(s) == ToParts(ScanBlocks(s, 0))
    ensures s == [] ==> ContentParts(s) == [TextPart("")]
    ensures |ContentParts(s)| == if s == [] then 1 else |ScanBlocks(s, 0)|
    ensures forall k :: 0 <= k < |ScanBlocks(s, 0)| ==>
              var p := ScanBlocks(s, 0)[k];
              && (p.Gap? ==> ContentParts(s)[k] == TextPart(p.text))
              && (p.Fenced? ==> ContentParts(s)[k].CodePart? && ContentParts(s)[k].content == Trim(p.body))
              && (p.Fenced? && p.tag != "" ==> ContentParts(s)[k].language == p.tag)
              && (p.Fenced? && p.tag == "" ==> ContentParts(s)[k].language == "javascript")
  {
    ScanBlocksSource(s, 0);
    ScanBlocksWellFormed(s, 0);
    assert s[0..] == s;
    if s != [] {
      ScanBlocksUnfold(s, 0);
    }
  }

  /** A non-empty message is one gap exactly when the regex matches nowhere in it. */
  lemma ScanBlocksPlain(s: string)
    requires s != []
    ensures ScanBlocks(s, 0) == [Gap(s)] <==> NoBlockIn(s, 0, |s|)
  {
    if NoBlockIn(s, 0, |s|) {
      NextBlockSkips(s, 0, |s|);
      ScanBlocksRest(s, 0);
      assert s[0..] == s;
    }
    if ScanBlocks(s, 0) == [Gap(s)] {
      ScanBlocksUnfold(s, 0);
      BlockStepGap(s, 0);
    }
  }

  /** The parts are one text part exactly when the pieces are one gap holding the same text. */
  lemma ToPartsSingleText(ps: seq<Piece>, t: string)
    ensures ToParts(ps) == [TextPart(t)] <==> ps == [Gap(t)]
  {
    if ToParts(ps) == [TextPart(t)] {
      assert |ps| == 1 && ToParts(ps)[0] == ToPart(ps[0]);
    }
  }

  /**
   * A message is one text part equal to itself exactly when the regex matches
   * nowhere in it: this covers a fence that is opened and never closed.
   */
  lemma ContentPartsPlain(s: string)
    ensures ContentParts(s) == [TextPart(s)] <==> NoBlockIn(s, 0, |s|)
  {
    if s != [] {
      ScanBlocksPlain(s);
      ScanBlocksUnfold(s, 0);
      ToPartsSingleText(ScanBlocks(s, 0), s);
    }
  }

  /** A message in which a fence begins at one index at most holds no block. */
  lemma {:induction false} NoClosingFenceNoBlock(s: string, a: nat)
    requires a <= |s|
    requires forall i, j :: 0 <= i < j < |s| ==> !(FenceAt(s, i) && FenceAt(s, j))
    ensures NoBlockIn(s, a, |s|)
    decreases |s| - a
  {
    if a < |s| {
      if BlockAt(s, a).Some? {
        assert false;
      }
      NoClosingFenceNoBlock(s, a + 1);
    }
  }

  /** An opening fence that is never closed leaves the whole message as one text part. */
  lemma UnclosedFenceIsText(s: string)
    requires forall i, j :: 0 <= i < j < |s| ==> !(FenceAt(s, i) && FenceAt(s, j))
    ensures ContentParts(s) == [TextPart(s)]
  {
    NoClosingFenceNoBlock(s, 0);
    ContentPartsPlain(s);
  }

  /** A tagged block that spans the whole message is one code part, trimmed, in the tag's language. */
  lemma TaggedBlock(tag: string, body: string)
    requires tag != [] && forall k :: 0 <= k < |tag| ==> IsWordChar(tag[k])
    requires NoFence(body) && (body == [] || body[|body| - 1] != '`')
    ensures ContentParts("```" + tag + "\n" + body + "```") == [CodePart(Trim(body), tag)]
  {
    var s := "```" + tag + "\n" + body + "```";
    WholeBlock(tag, body);
    assert ToParts([Fenced(tag, body)]) == [ToPart(Fenced(tag, body))];
  }

  /** A fence, a word tag, a newline, a body without a fence and a closing fence form one block. */
  lemma WholeBlock(tag: string, body: string)
    requires forall k :: 0 <= k < |tag| ==> IsWordChar(tag[k])
    requires NoFence(body) && (body == [] || body[|body| - 1] != '`')
    ensures ScanBlocks("```" + tag + "\n" + body + "```", 0) == [Fenced(tag, body)]
  {
    var s := "```" + tag + "\n" + body + "```";
    var f := Found(0, 3 + |tag|, 4 + |tag| + |body|);
    WholeBlockMatches(tag, body);
    BlockAtComplete(s, 0, f.tagEnd, f.bodyEnd);
    assert s[3 .. f.tagEnd] == tag && s[f.tagEnd + 1 .. f.bodyEnd] == body;
    assert BlockStep(s, 0) == Step(Fenced(tag, body), |s|);
  }

  lemma WholeBlockMatches(tag: string, body: string)
    requires forall k :: 0 <= k < |tag| ==> IsWordChar(tag[k])
    requires NoFence(body) && (body == [] || body[|body| - 1] != '`')
    ensures IsBlock("```" + tag + "\n" + body + "```", 0, 3 + |tag|, 4 + |tag| + |body|)
  {
    var s := "```" + tag + "\n" + body + "```";
    var tagEnd, bodyEnd := 3 + |tag|, 4 + |tag| + |body|;
    forall k | 3 <= k < tagEnd
      ensures IsWordChar(s[k])
    {
      assert s[k] == tag[k - 3];
    }
    forall q | tagEnd + 1 <= q < bodyEnd
      ensures !FenceAt(s, q)
    {
      var k := q - tagEnd - 1;
      assert s[q] == body[k];
      if k + 2 < |body| {
        assert s[q + 1] == body[k + 1] && s[q + 2] == body[k + 2];
        assert !FenceAt(body, k);
      } else if k + 1 < |body| {
        assert s[q + 1] == body[k + 1];
      }
    }
  }
}

=== FILE: Emphasis.dfy ===
/**
 * The second pass of `formatText` in the `FormattedText` component: a text
 * segment is cut into plain and emphasised parts by the global regex
 *
 *   (\*\*\*([^*]+)\*\*\*|\*\*([^*]+)\*\*|\*([^*]+)\*|~~([^~]+)~~|__([^_]+)__|_([^_]+)_|<u>([^<]+)<\/u>)
 *
 * an alternation of seven delimiter pairs, tried in that order at each index.
 * Every body is one or more characters other than the first character of the
 * closing delimiter, so an alternative matches at `i` exactly when its opening
 * delimiter is there, the body runs up to the next occurrence of that
 * character, is non-empty, and the closing delimiter starts there.
 */
module Emphasis {
  import opened Optional
  import opened Strings
  import opened Sequences

  /** The alternatives of the regex, named by their delimiters. */
  datatype Marker = TripleStar | DoubleStar | Star | DoubleTilde | DoubleUnderscore | Underscore | UTag

  /** The order in which the alternation tries them. */
  const Alternatives: seq<Marker> := [TripleStar, DoubleStar, Star, DoubleTilde, DoubleUnderscore, Underscore, UTag]

  /** Position of an alternative in the alternation. */
  function Rank(m: Marker): (r: nat)
    ensures r < |Alternatives| && Alternatives[r] == m
  {
    match m
    case TripleStar => 0
    case DoubleStar => 1
    case Star => 2
    case DoubleTilde => 3
    case DoubleUnderscore => 4
    case Underscore => 5
    case UTag => 6
  }

  /** The alternatives are listed once each: the position of the `r`-th is `r`. */
  lemma RankOf(r: nat)
    requires r < |Alternatives|
    ensures Rank(Alternatives[r]) == r
  {
  }

  function Open(m: Marker): (d: string)
    ensures 1 <= |d| <= 3
  {
    match m
    case TripleStar => "***"
    case DoubleStar => "**"
    case Star => "*"
    case DoubleTilde => "~~"
    case DoubleUnderscore => "__"
    case Underscore => "_"
    case UTag => "<u>"
  }

  function Close(m: Marker): (d: string)
    ensures 1 <= |d| <= 4
  {
    match m
    case UTag => "</u>"
    case _ => Open(m)
  }

  /** The character the body of an alternative may not hold; its closing delimiter starts with it. */
  function Excluded(m: Marker): (c: char)
    ensures Close(m) != [] && c == Close(m)[0]
  {
    match m
    case TripleStar => '*'
    case DoubleStar => '*'
    case Star => '*'
    case DoubleTilde => '~'
    case DoubleUnderscore => '_'
    case Underscore => '_'
    case UTag => '<'
  }

  /**
   * `open([^c]+)close`, where `c` is the first character of `close`, matches
   * exactly `s[i..e]`.
   */
  ghost predicate IsDelimited(s: string, i: nat, open: string, close: string, e: nat)
    requires close != []
  {
    && i + |open| < e - |close| && e <= |s|
    && StartsWithAt(s, i, open) && StartsWithAt(s, e - |close|, close)
    && forall k :: i + |open| <= k < e - |close| ==> s[k] != close[0]
  }

  /** The end of the match of `open([^c]+)close` at `i`, if it matches there. */
  function DelimitedAt(s: string, i: nat, open: string, close: string): (r: Option<nat>)
    requires close != []
    ensures r.Some? ==> i + |open| < r.value - |close| && r.value <= |s|
  {
    if StartsWithAt(s, i, open) then
      var j := FindChar(s, close[0], i + |open|);
      if i + |open| < j && StartsWithAt(s, j, close) then Some(j + |close|) else None
    else None
  }

  /** What `DelimitedAt` finds is a match. */
  lemma DelimitedAtSound(s: string, i: nat, open: string, close: string)
    requires close != [] && DelimitedAt(s, i, open, close).Some?
    ensures IsDelimited(s, i, open, close, DelimitedAt(s, i, open, close).value)
  {
  }

  /** Every match at `i` is the one `DelimitedAt` finds; so there is at most one. */
  lemma DelimitedAtComplete(s: string, i: nat, open: string, close: string, e: nat)
    requires close != [] && IsDelimited(s, i, open, close, e)
    ensures DelimitedAt(s, i, open, close) == Some(e)
  {
    var c := e - |close|;
    assert s[c] == s[c .. c + |close|][0];
    assert FindChar(s, close[0], i + |open|) == c;
  }

  /** Alternative `m` of the regex matches exactly `s[i..e]`. */
  ghost predicate IsAlternativeMatch(s: string, i: nat, m: Marker, e: nat) {
    IsDelimited(s, i, Open(m), Close(m), e)
  }

  /** The end of the match of alternative `m` at `i`, if it matches there. */
  function AlternativeAt(s: string, i: nat, m: Marker): (r: Option<nat>)
    ensures r.Some? ==> i + |Open(m)| < r.value - |Close(m)| && r.value <= |s|
  {
    DelimitedAt(s, i, Open(m), Close(m))
  }

  /** A match of the whole regex: the alternative that matched and where the match ends. */
  datatype Match = Match(marker: Marker, end: nat)

  /** The match's body lies strictly between its delimiters. */
  ghost predicate Fits(s: string, i: nat, found: Match) {
    i + |Open(found.marker)| < found.end - |Close(found.marker)| && found.end <= |s|
  }

  /** The first of the alternatives from position `r` on that matches at `i`. */
  function FirstAlternative(s: string, i: nat, r: nat): (found: Option<Match>)
    requires r <= |Alternatives|
    ensures found.Some? ==> Fits(s, i, found.value)
    decreases |Alternatives| - r
  {
    if r == |Alternatives| then None
    else match AlternativeAt(s, i, Alternatives[r])
      case Some(e) => Some(Match(Alternatives[r], e))
      case None => FirstAlternative(s, i, r + 1)
  }

  /** The regex's match at `i`: the alternation tries its alternatives in order. */
  function EmphasisAt(s: string, i: nat): (found: Option<Match>)
    ensures found.Some? ==> Fits(s, i, found.value)
  {
    FirstAlternative(s, i, 0)
  }

  /** What `FirstAlternative` finds is a match of an alternative from position `r` on. */
  lemma {:induction false} FirstAlternativeSound(s: string, i: nat, r: nat)
    requires r <= |Alternatives| && FirstAlternative(s, i, r).Some?
    ensures var found := FirstAlternative(s, i, r).value;
            r <= Rank(found.marker) && IsAlternativeMatch(s, i, found.marker, found.end)
    decreases |Alternatives| - r
  {
    RankOf(r);
    if AlternativeAt(s, i, Alternatives[r]).Some? {
      DelimitedAtSound(s, i, Open(Alternatives[r]), Close(Alternatives[r]));
    } else {
      FirstAlternativeSound(s, i, r + 1);
    }
  }

  /** No alternative from position `r` on that comes before the one found matches. */
  lemma {:induction false} FirstAlternativeEarlier(s: string, i: nat, r: nat, m: Marker, e: nat)
    requires r <= |Alternatives| && r <= Rank(m) && IsAlternativeMatch(s, i, m, e)
    ensures FirstAlternative(s, i, r).Some? && Rank(FirstAlternative(s, i, r).value.marker) <= Rank(m)
    decreases |Alternatives| - r
  {
    RankOf(r);
    if AlternativeAt(s, i, Alternatives[r]).None? {
      if Rank(m) == r {
        DelimitedAtComplete(s, i, Open(m), Close(m), e);
      } else {
        FirstAlternativeEarlier(s, i, r + 1, m, e);
      }
    }
  }

  /**
   * The match at `i` is a match of its alternative, and no alternative listed
   * before it matches there; there is none exactly when no alternative matches.
   */
  lemma EmphasisAtIsFirstMatch(s: string, i: nat)
    ensures var found := EmphasisAt(s, i);
            && (found.Some? ==>
                  && IsAlternativeMatch(s, i, found.value.marker, found.value.end)
                  && forall m, e: nat :: Rank(m) < Rank(found.value.marker) ==> !IsAlternativeMatch(s, i, m, e))
            && (found.None? ==> forall m, e: nat :: !IsAlternativeMatch(s, i, m, e))
  {
    if EmphasisAt(s, i).Some? {
      FirstAlternativeSound(s, i, 0);
    }
    forall m, e: nat | IsAlternativeMatch(s, i, m, e)
      ensures EmphasisAt(s, i).Some? && Rank(EmphasisAt(s, i).value.marker) <= Rank(m)
    {
      FirstAlternativeEarlier(s, i, 0, m, e);
    }
  }

  /** No match of the regex begins at an index in [a, b). */
  predicate NoEmphasisIn(s: string, a: nat, b: nat)
    decreases b - a
  {
    a >= b || (EmphasisAt(s, a).None? && NoEmphasisIn(s, a + 1, b))
  }

  lemma {:induction false} NoEmphasisInAt(s: string, a: nat, b: nat, q: nat)
    requires NoEmphasisIn(s, a, b) && a <= q < b
    ensures EmphasisAt(s, q).None?
    decreases b - a
  {
    if a < q {
      NoEmphasisInAt(s, a + 1, b, q);
    }
  }

  /** No alternative of the regex matches at index `q`. */
  ghost predicate NoMatchAt(s: string, q: nat) {
    forall m, e: nat :: !IsAlternativeMatch(s, q, m, e)
  }

  lemma EmphasisAtNoneMeans(s: string, q: nat)
    ensures EmphasisAt(s, q).None? <==> NoMatchAt(s, q)
  {
    EmphasisAtIsFirstMatch(s, q);
  }

  lemma {:induction false} NoMatchesNoEmphasis(s: string, a: nat, b: nat)
    requires forall q: nat :: a <= q < b ==> NoMatchAt(s, q)
    ensures NoEmphasisIn(s, a, b)
    decreases b - a
  {
    if a < b {
      EmphasisAtNoneMeans(s, a);
      NoMatchesNoEmphasis(s, a + 1, b);
    }
  }

  /** The executable range predicate means that no alternative of the regex matches at any index in [a, b). */
  lemma NoEmphasisInMeans(s: string, a: nat, b: nat)
    ensures NoEmphasisIn(s, a, b) <==> forall q: nat, m, e: nat :: a <= q < b ==> !IsAlternativeMatch(s, q, m, e)
  {
    if forall q: nat, m, e: nat :: a <= q < b ==> !IsAlternativeMatch(s, q, m, e) {
      forall q: nat | a <= q < b
        ensures NoMatchAt(s, q)
      {
      }
      NoMatchesNoEmphasis(s, a, b);
    }
    if NoEmphasisIn(s, a, b) {
      forall q: nat, m, e: nat | a <= q < b
        ensures !IsAlternativeMatch(s, q, m, e)
      {
        NoEmphasisInAt(s, a, b, q);
        EmphasisAtNoneMeans(s, q);
      }
    }
  }

  /** A match found by the search: where it starts, which alternative, where it ends. */
  datatype Found = Found(start: nat, marker: Marker, end: nat)

  /** `formatRegex.exec(s)` with `lastIndex == from`: the match found by scanning from `from`. */
  function NextEmphasis(s: string, from: nat): (r: Option<Found>)
    requires from <= |s|
    ensures r.Some? ==> from <= r.value.start && Fits(s, r.value.start, Match(r.value.marker, r.value.end))
    decreases |s| - from
  {
    if from == |s| then None
    else match EmphasisAt(s, from)
      case Some(m) => Some(Found(from, m.marker, m.end))
      case None => NextEmphasis(s, from + 1)
  }

  /** `NextEmphasis` is the leftmost match at or after `from`, and `None` exactly when there is none. */
  lemma {:induction false} NextEmphasisIsLeftmost(s: string, from: nat)
    requires from <= |s|
    ensures var r := NextEmphasis(s, from);
            && (r.Some? ==> EmphasisAt(s, r.value.start) == Some(Match(r.value.marker, r.value.end))
                            && NoEmphasisIn(s, from, r.value.start))
            && (r.None? ==> NoEmphasisIn(s, from, |s|))
    decreases |s| - from
  {
    if from < |s| && EmphasisAt(s, from).None? {
      NextEmphasisIsLeftmost(s, from + 1);
    }
  }

  /** Scanning from `from` skips a stretch in which no match begins. */
  lemma {:induction false} NextEmphasisSkips(s: string, from: nat, p: nat)
    requires from <= p <= |s| && NoEmphasisIn(s, from, p)
    ensures NextEmphasis(s, from) == NextEmphasis(s, p)
    decreases p - from
  {
    if from < p {
      NextEmphasisSkips(s, from + 1, p);
    }
  }

  // ---------------------------------------------------------------------------
  // The scan: tokens, and the parts they become
  // ---------------------------------------------------------------------------

  /** What the loop finds: unmatched text, or the body of a match of one alternative. */
  datatype Token = Plain(text: string) | Emph(marker: Marker, body: string)

  /** The characters a token stands for: a body is re-wrapped in its delimiters. */
  function TokenSource(t: Token): string {
    match t
    case Plain(x) => x
    case Emph(m, body) => Open(m) + body + Close(m)
  }

  function TokensSource(ts: seq<Token>): string
    decreases |ts|
  {
    if ts == [] then "" else TokenSource(ts[0]) + TokensSource(ts[1..])
  }

  /** The token for a match the search found: its alternative, and the text between its delimiters. */
  function EmphToken(s: string, f: Found): Token
    requires Fits(s, f.start, Match(f.marker, f.end))
  {
    Emph(f.marker, s[f.start + |Open(f.marker)| .. f.end - |Close(f.marker)|])
  }

  /** One step of the scan: the token found at a position, and the position after it. */
  datatype TokenStep = TokenStep(token: Token, next: nat)

  /**
   * The token the loop of :57-96 finds at `from`: the text up to the next match,
   * or the match itself when it starts at `from`, or the rest of the text when no
   * match is left.
   */
  function EmphasisStep(s: string, from: nat): (r: TokenStep)
    requires from < |s|
    ensures from < r.next <= |s|
  {
    match NextEmphasis(s, from)
    case None => TokenStep(Plain(s[from..]), |s|)
    case Some(f) =>
      if from < f.start then TokenStep(Plain(s[from .. f.start]), f.start)
      else TokenStep(EmphToken(s, f), f.end)
  }

  /** The tokens the loop finds in `s[from..]` (`lastIndex == from`). */
  function ScanEmphasis(s: string, from: nat): seq<Token>
    requires from <= |s|
    decreases |s| - from
  {
    if from == |s| then []
    else
      var step := EmphasisStep(s, from);
      [step.token] + ScanEmphasis(s, step.next)
  }

  /** A part of the formatted text: its characters and its four style flags. */
  datatype Part = Part(text: string, bold: bool, italic: bool, strike: bool, underline: bool)

  /** The part pushed for a token: the branch of :67-88 that the matching group selects, or plain text. */
  function ToPart(t: Token): Part {
    match t
    case Plain(x) => Part(x, false, false, false, false)
    case Emph(TripleStar, body) => Part(body, true, true, false, false)
    case Emph(DoubleStar, body) => Part(body, true, false, false, false)
    case Emph(Star, body) => Part(body, false, true, false, false)
    case Emph(DoubleTilde, body) => Part(body, false, false, true, false)
    case Emph(DoubleUnderscore, body) => Part(body, true, false, false, false)
    case Emph(Underscore, body) => Part(body, false, true, false, false)
    case Emph(UTag, body) => Part(body, false, false, false, true)
  }

  function ToParts(ts: seq<Token>): (parts: seq<Part>) {
    seq(|ts|, k requires 0 <= k < |ts| => ToPart(ts[k]))
  }

  /** The parts of :57-96 for a text segment. */
  function EmphasisParts(s: string): seq<Part> {
    ToParts(ScanEmphasis(s, 0))
  }

  // ---------------------------------------------------------------------------
  // The loop
  // ---------------------------------------------------------------------------

  /** One round of the loop: the text before the next match, if any, then the match. */
  lemma ScanEmphasisRound(s: string, from: nat)
    requires from <= |s| && NextEmphasis(s, from).Some?
    ensures var f := NextEmphasis(s, from).value;
            && (from < f.start ==> ScanEmphasis(s, from) == [Plain(s[from .. f.start])] + ScanEmphasis(s, f.start))
            && ScanEmphasis(s, f.start)
               == [EmphToken(s, f)] + ScanEmphasis(s, f.end)
  {
    var f := NextEmphasis(s, from).value;
    NextEmphasisIsLeftmost(s, from);
    NextEmphasisSkips(s, from, f.start);
  }

  /** After the last match, the scan is the rest of the text. */
  lemma ScanEmphasisRest(s: string, from: nat)
    requires from < |s| && NextEmphasis(s, from).None?
    ensures ScanEmphasis(s, from) == [Plain(s[from..])]
  {
  }

  /** What one round of the loop finds, followed by the scan after the match, is the scan before it. */
  lemma ScanEmphasisRoundPushed(s: string, from: nat, before: seq<Token>, after: seq<Token>)
    requires from <= |s| && NextEmphasis(s, from).Some?
    requires var f := NextEmphasis(s, from).value;
             after == before + (if from < f.start then [Plain(s[from .. f.start])] else [])
                      + [EmphToken(s, f)]
    ensures before + ScanEmphasis(s, from) == after + ScanEmphasis(s, NextEmphasis(s, from).value.end)
  {
    var f := NextEmphasis(s, from).value;
    var emph := EmphToken(s, f);
    ScanEmphasisRound(s, from);
    if from < f.start {
      PushedGapAndMatch(before, after, Plain(s[from .. f.start]), emph,
                        ScanEmphasis(s, from), ScanEmphasis(s, f.start), ScanEmphasis(s, f.end));
    } else {
      PushedMatch(before, after, emph, ScanEmphasis(s, from), ScanEmphasis(s, f.end));
    }
  }

  lemma ToPartsPush(ts: seq<Token>, t: Token)
    ensures ToParts(ts + [t]) == ToParts(ts) + [ToPart(t)]
  {
  }

  lemma ToPartsJoin(ts: seq<Token>, rest: seq<Token>)
    ensures ToParts(ts + rest) == ToParts(ts) + ToParts(rest)
  {
  }

  /** The loop of `formatText` over a text segment (FormattedText.tsx:57-96). */
  method ParseEmphasis(formatted: string) returns (parts: seq<Part>)
    ensures parts == EmphasisParts(formatted)
  {
    parts := [];
    var lastIndex := 0;
    var found := NextEmphasis(formatted, lastIndex);
    ghost var tokens: seq<Token> := [];
    ghost var total := ScanEmphasis(formatted, 0);
    while found.Some?
      invariant lastIndex <= |formatted|
      invariant found == NextEmphasis(formatted, lastIndex)
      invariant tokens + ScanEmphasis(formatted, lastIndex) == total
      invariant parts == ToParts(tokens)
      decreases |formatted| - lastIndex
    {
      var f := found.value;
      ghost var before := tokens;
      if f.start > lastIndex {
        var gap := Plain(formatted[lastIndex .. f.start]);
        ToPartsPush(tokens, gap);
        tokens := tokens + [gap];
        parts := parts + [ToPart(gap)];
      }
      var emph := EmphToken(formatted, f);
      ToPartsPush(tokens, emph);
      tokens := tokens + [emph];
      parts := parts + [ToPart(emph)];
      ScanEmphasisRoundPushed(formatted, lastIndex, before, tokens);
      lastIndex := f.end;
      found := NextEmphasis(formatted, lastIndex);
    }
    if lastIndex < |formatted| {
      ScanEmphasisRest(formatted, lastIndex);
      ToPartsPush(tokens, Plain(formatted[lastIndex..]));
      parts := parts + [ToPart(Plain(formatted[lastIndex..]))];
      tokens := tokens + [Plain(formatted[lastIndex..])];
    }
    ToPartsJoin(tokens, ScanEmphasis(formatted, lastIndex));
  }

  // ---------------------------------------------------------------------------
  // What the scan finds at each step
  // ---------------------------------------------------------------------------

  /**
   * A plain token found at `from` is the stretch of the text up to the next
   * match, or to the end, and no match begins inside it.
   */
  lemma EmphasisStepPlain(s: string, from: nat)
    requires from < |s|
    ensures var step := EmphasisStep(s, from);
            step.token.Plain? ==>
              && step.token.text == s[from .. step.next]
              && NoEmphasisIn(s, from, step.next)
              && (step.next == |s| || EmphasisAt(s, step.next).Some?)
  {
    NextEmphasisIsLeftmost(s, from);
    assert s[from .. |s|] == s[from..];
  }

  /** A match the search finds is the regex's match at its start: its first alternative that matches there. */
  lemma FoundIsMatch(s: string, from: nat, f: Found)
    requires from <= |s| && NextEmphasis(s, from) == Some(f)
    ensures EmphasisAt(s, f.start) == Some(Match(f.marker, f.end))
    ensures IsAlternativeMatch(s, f.start, f.marker, f.end)
  {
    NextEmphasisIsLeftmost(s, from);
    FirstAlternativeSound(s, f.start, 0);
  }

  /**
   * An emphasised token found at `from` is the regex's match at `from`: the
   * first alternative that matches there, with its body between the delimiters.
   */
  lemma EmphasisStepEmph(s: string, from: nat)
    requires from < |s|
    ensures var step := EmphasisStep(s, from);
            step.token.Emph? ==>
              && EmphasisAt(s, from) == Some(Match(step.token.marker, step.next))
              && IsAlternativeMatch(s, from, step.token.marker, step.next)
              && step.token == EmphToken(s, Found(from, step.token.marker, step.next))
  {
    match NextEmphasis(s, from)
    case None =>
    case Some(f) =>
      if f.start == from {
        FoundIsMatch(s, from, f);
      }
  }

  /** A delimited match is its opening delimiter, its body and its closing delimiter. */
  lemma DelimitedSource(s: string, i: nat, open: string, close: string, e: nat)
    requires close != [] && IsDelimited(s, i, open, close, e)
    ensures s[i .. e] == open + s[i + |open| .. e - |close|] + close
  {
    SliceThree(s, i, i + |open|, e - |close|, e);
  }

  /** The body of a delimited match is non-empty and does not hold the first character of the closing delimiter. */
  lemma DelimitedBody(s: string, i: nat, open: string, close: string, e: nat)
    requires close != [] && IsDelimited(s, i, open, close, e)
    ensures var body := s[i + |open| .. e - |close|];
            body != [] && close[0] !in body
  {
    var body := s[i + |open| .. e - |close|];
    forall k | 0 <= k < |body|
      ensures body[k] != close[0]
    {
      assert body[k] == s[i + |open| + k];
    }
  }

  /** The token of a match stands for the matched characters. */
  lemma EmphTokenSource(s: string, f: Found)
    requires IsAlternativeMatch(s, f.start, f.marker, f.end)
    ensures s[f.start .. f.end] == TokenSource(EmphToken(s, f))
  {
    var open, close := Open(f.marker), Close(f.marker);
    var body := s[f.start + |open| .. f.end - |close|];
    DelimitedSource(s, f.start, open, close, f.end);
    assert EmphToken(s, f) == Emph(f.marker, body);
    assert TokenSource(Emph(f.marker, body)) == open + body + close;
  }

  /** The body of a match is non-empty and does not hold its alternative's excluded character. */
  lemma EmphTokenWellFormed(s: string, f: Found)
    requires IsAlternativeMatch(s, f.start, f.marker, f.end)
    ensures EmphToken(s, f).body != [] && Excluded(f.marker) !in EmphToken(s, f).body
  {
    DelimitedBody(s, f.start, Open(f.marker), Close(f.marker), f.end);
  }

  /** The step at `from` stands for exactly the characters it passes over. */
  lemma EmphasisStepSource(s: string, from: nat)
    requires from < |s|
    ensures s[from .. EmphasisStep(s, from).next] == TokenSource(EmphasisStep(s, from).token)
  {
    var step := EmphasisStep(s, from);
    if step.token.Plain? {
      EmphasisStepPlain(s, from);
    } else {
      EmphasisStepEmph(s, from);
      EmphTokenSource(s, Found(from, step.token.marker, step.next));
    }
  }

  /** The step at `from` finds a non-empty token; an emphasised body never holds its excluded character. */
  lemma EmphasisStepWellFormed(s: string, from: nat)
    requires from < |s|
    ensures var t := EmphasisStep(s, from).token;
            && (t.Plain? ==> t.text != [])
            && (t.Emph? ==> t.body != [] && Excluded(t.marker) !in t.body)
  {
    var step := EmphasisStep(s, from);
    if step.token.Plain? {
      EmphasisStepPlain(s, from);
    } else {
      EmphasisStepEmph(s, from);
      EmphTokenWellFormed(s, Found(from, step.token.marker, step.next));
    }
  }

  /** Plain text that stops before the end of the text is followed by a match. */
  lemma EmphasisStepPlainThenEmph(s: string, from: nat)
    requires from < |s|
    requires EmphasisStep(s, from).token.Plain? && EmphasisStep(s, from).next < |s|
    ensures EmphasisStep(s, EmphasisStep(s, from).next).token.Emph?
  {
    EmphasisStepPlain(s, from);
  }

  /** A non-empty scan is its first step followed by the scan after it. */
  lemma ScanEmphasisUnfold(s: string, from: nat)
    requires from < |s|
    ensures var step := EmphasisStep(s, from);
            && ScanEmphasis(s, from) != []
            && ScanEmphasis(s, from)[0] == step.token
            && ScanEmphasis(s, from)[1..] == ScanEmphasis(s, step.next)
  {
    var step := EmphasisStep(s, from);
    assert ([step.token] + ScanEmphasis(s, step.next))[1..] == ScanEmphasis(s, step.next);
  }

  // ---------------------------------------------------------------------------
  // Properties of the scan
  // ---------------------------------------------------------------------------

  /** The scan is lossless: re-wrapping every body in its delimiters gives back `s[from..]`. */
  lemma {:induction false} ScanEmphasisSource(s: string, from: nat)
    requires from <= |s|
    ensures TokensSource(ScanEmphasis(s, from)) == s[from..]
    decreases |s| - from
  {
    if from < |s| {
      var next := EmphasisStep(s, from).next;
      ScanEmphasisSource(s, next);
      EmphasisStepSource(s, from);
      ScanEmphasisUnfold(s, from);
      TokensSourceCons(s, from, next, ScanEmphasis(s, from));
    }
  }

  lemma TokensSourceCons(s: string, from: nat, next: nat, ts: seq<Token>)
    requires ts != [] && from <= next <= |s| && s[from .. next] == TokenSource(ts[0])
    requires TokensSource(ts[1..]) == s[next..]
    ensures TokensSource(ts) == s[from..]
  {
    SliceSplit(s, from, next);
  }

  /**
   * Plain tokens are non-empty, bodies are non-empty and never hold their
   * alternative's excluded character, and no two plain tokens touch.
   */
  ghost predicate WellFormedTokens(ts: seq<Token>) {
    && (forall k :: 0 <= k < |ts| && ts[k].Plain? ==> ts[k].text != [])
    && (forall k :: 0 <= k < |ts| && ts[k].Emph? ==> ts[k].body != [] && Excluded(ts[k].marker) !in ts[k].body)
    && (forall k :: 0 <= k < |ts| - 1 ==> ts[k].Emph? || ts[k + 1].Emph?)
  }

  lemma WellFormedTokensCons(ts: seq<Token>)
    requires ts != []
    requires ts[0].Plain? ==> ts[0].text != []
    requires ts[0].Emph? ==> ts[0].body != [] && Excluded(ts[0].marker) !in ts[0].body
    requires WellFormedTokens(ts[1..])
    requires |ts| > 1 && ts[0].Plain? ==> ts[1..][0].Emph?
    ensures WellFormedTokens(ts)
  {
    var rest := ts[1..];
    forall k | 0 < k < |ts|
      ensures ts[k] == rest[k - 1]
    {
    }
  }

  lemma {:induction false} ScanEmphasisWellFormed(s: string, from: nat)
    requires from <= |s|
    ensures WellFormedTokens(ScanEmphasis(s, from))
    decreases |s| - from
  {
    if from < |s| {
      var next := EmphasisStep(s, from).next;
      ScanEmphasisWellFormed(s, next);
      EmphasisStepWellFormed(s, from);
      ScanEmphasisUnfold(s, from);
      if next < |s| {
        ScanEmphasisUnfold(s, next);
        if EmphasisStep(s, from).token.Plain? {
          EmphasisStepPlainThenEmph(s, from);
        }
      }
      WellFormedTokensCons(ScanEmphasis(s, from));
    }
  }

  /**
   * A part carries no style exactly when it comes from unmatched text, and
   * otherwise the styles of its alternative: `***` bold and italic, `**` and
   * `__` bold, `*` and `_` italic, `~~` strike-through, `<u>` underline.
   */
  lemma ToPartStyles(t: Token)
    ensures var p := ToPart(t);
            && (t.Plain? <==> !p.bold && !p.italic && !p.strike && !p.underline)
            && (t.Emph? ==>
                  && p.text == t.body
                  && (p.bold <==> t.marker in {TripleStar, DoubleStar, DoubleUnderscore})
                  && (p.italic <==> t.marker in {TripleStar, Star, Underscore})
                  && (p.strike <==> t.marker == DoubleTilde)
                  && (p.underline <==> t.marker == UTag))
    ensures t.Plain? ==> ToPart(t).text == t.text
  {
  }

  /**
   * The parts of a text segment are lossless once each styled part is put back
   * between its delimiters, and well formed.
   */
  lemma EmphasisPartsFaithful(s: string)
    ensures TokensSource(ScanEmphasis(s, 0)) == s
    ensures WellFormedTokens(ScanEmphasis(s, 0))
    ensures EmphasisParts(s) == ToParts(ScanEmphasis(s, 0))
    ensures EmphasisParts(s) == [] <==> s == []
  {
    ScanEmphasisSource(s, 0);
    ScanEmphasisWellFormed(s, 0);
    assert s[0..] == s;
    if s != [] {
      ScanEmphasisUnfold(s, 0);
    }
  }

  /**
   * A text in which the regex matches nowhere is one plain part equal to it;
   * this is where unbalanced delimiters end up.
   */
  lemma EmphasisPartsPlain(s: string)
    requires s != []
    ensures ScanEmphasis(s, 0) == [Plain(s)] <==> NoEmphasisIn(s, 0, |s|)
  {
    if NoEmphasisIn(s, 0, |s|) {
      NextEmphasisSkips(s, 0, |s|);
      ScanEmphasisRest(s, 0);
      assert s[0..] == s;
    }
    if ScanEmphasis(s, 0) == [Plain(s)] {
      ScanEmphasisUnfold(s, 0);
      EmphasisStepPlain(s, 0);
    }
  }

  /** When the regex's match at 0 spans the whole text, the text is that one token. */
  lemma WholeMatchIsOneToken(s: string, m: Marker)
    requires EmphasisAt(s, 0) == Some(Match(m, |s|))
    ensures ScanEmphasis(s, 0) == [EmphToken(s, Found(0, m, |s|))]
  {
  }

  /**
   * At one position the alternative listed first wins: `***x***` is one part,
   * bold and italic, and not `**` around `*x*` or `*` around `**x**`.
   */
  lemma TripleStarIsBoldItalic(x: string)
    requires x != [] && '*' !in x
    ensures EmphasisParts("***" + x + "***") == [Part(x, true, true, false, false)]
  {
    var s := "***" + x + "***";
    assert s[0 .. 3] == "***" && s[|s| - 3 .. |s|] == "***";
    forall k | 3 <= k < |s| - 3
      ensures s[k] != '*'
    {
      assert s[k] == x[k - 3];
    }
    assert IsAlternativeMatch(s, 0, TripleStar, |s|);
    DelimitedAtComplete(s, 0, Open(TripleStar), Close(TripleStar), |s|);
    WholeMatchIsOneToken(s, TripleStar);
    assert s[3 .. |s| - 3] == x;
  }

  /** The first characters of the closing delimiters. */
  predicate IsDelimiterChar(c: char) {
    c == '*' || c == '~' || c == '_' || c == '<'
  }

  /**
   * A match at `q` needs its closing delimiter at least two characters after
   * `q` (after an opening delimiter and a non-empty body), so a text with no
   * delimiter character from there on has no match at `q`.
   */
  lemma NoClosingCharNoMatch(s: string, q: nat, m: Marker, e: nat)
    requires forall k :: q + 2 <= k < |s| ==> !IsDelimiterChar(s[k])
    ensures !IsAlternativeMatch(s, q, m, e)
  {
    assert IsDelimiterChar(Close(m)[0]);
  }

  /**
   * An opening `**` followed by text with no delimiter character is never
   * closed, and the whole text stays one plain part.
   */
  lemma UnclosedDelimiterIsPlain(x: string)
    requires x != [] && forall k :: 0 <= k < |x| ==> !IsDelimiterChar(x[k])
    ensures EmphasisParts("**" + x) == [Part("**" + x, false, false, false, false)]
  {
    var s := "**" + x;
    forall q: nat, m, e: nat | 0 <= q < |s|
      ensures !IsAlternativeMatch(s, q, m, e)
    {
      assert forall k :: 2 <= k < |s| ==> s[k] == x[k - 2];
      NoClosingCharNoMatch(s, q, m, e);
    }
    NoEmphasisInMeans(s, 0, |s|);
    EmphasisPartsPlain(s);
    assert ToParts([Plain(s)]) == [ToPart(Plain(s))];
  }
}

=== FILE: FormattedText.dfy ===
/**
 * The `FormattedText` component: its content is split into lines, an empty
 * line becomes a no-break-space placeholder, and every other line goes through
 * `formatText`, which renders inline code verbatim and runs the emphasis pass
 * on the text between code spans only.
 */
module FormattedText {
  import opened Optional
  import opened Strings
  import opened InlineCode
  import opened Emphasis

  /** What `formatText` renders for one segment of a line. */
  datatype Inline =
    | CodeElement(content: string)   // `<code>` holding the code verbatim
    | PartSpans(parts: seq<Part>)    // a `<span>` holding one `<span>` per part
    | PlainSpan(content: string)     // a `<span>` holding the text, when the emphasis pass found no part

  /** The fallback of :98-100: a text segment without parts is rendered as it is. */
  function RenderText(t: string): Inline {
    var parts := EmphasisParts(t);
    if parts == [] then PlainSpan(t) else PartSpans(parts)
  }

  function RenderSegment(seg: Segment): Inline {
    match seg
    case Code(c) => CodeElement(c)
    case Text(t) => RenderText(t)
  }

  /** The elements `formatText(line)` returns: one per segment of the code-span split. */
  function FormatLine(line: string): seq<Inline> {
    var segs := SplitCode(line);
    seq(|segs|, k requires 0 <= k < |segs| => RenderSegment(segs[k]))
  }

  /** `formatText` (FormattedText.tsx:9-121): the code-span loop, then the emphasis loop on each text segment. */
  method FormatText(text: string) returns (out: seq<Inline>)
    ensures out == FormatLine(text)
  {
    var segments := SplitCodeSpans(text);
    out := [];
    for idx := 0 to |segments|
      invariant |out| == idx
      invariant forall k :: 0 <= k < idx ==> out[k] == RenderSegment(segments[k])
    {
      var segment := segments[idx];
      if segment.Code? {
        out := out + [CodeElement(segment.content)];
      } else {
        var parts := ParseEmphasis(segment.content);
        if |parts| == 0 {
          out := out + [PlainSpan(segment.content)];
        } else {
          out := out + [PartSpans(parts)];
        }
      }
    }
  }

  /**
   * Code is rendered verbatim and never reaches the emphasis pass: the line
   * renders one element per segment, code segments as code elements holding
   * their content, and text segments as the emphasis pass makes them.
   */
  lemma CodeIsVerbatim(line: string)
    ensures |FormatLine(line)| == |SplitCode(line)|
    ensures forall k :: 0 <= k < |SplitCode(line)| ==>
              (FormatLine(line)[k].CodeElement? <==> SplitCode(line)[k].Code?)
    ensures forall k :: 0 <= k < |SplitCode(line)| && SplitCode(line)[k].Code? ==>
              FormatLine(line)[k].content == SplitCode(line)[k].content
    ensures forall k :: 0 <= k < |SplitCode(line)| && SplitCode(line)[k].Text? ==>
              FormatLine(line)[k] == RenderText(SplitCode(line)[k].content)
  {
  }

  /** A non-empty line with no code span and no emphasis renders as one plain part holding the line. */
  lemma PlainLine(line: string)
    requires line != [] && NoCodeSpanIn(line, 0, |line|) && NoEmphasisIn(line, 0, |line|)
    ensures FormatLine(line) == [PartSpans([Part(line, false, false, false, false)])]
  {
    SplitCodePlain(line);
    EmphasisPartsPlain(line);
    assert EmphasisParts(line) == [Part(line, false, false, false, false)];
    SingleSegment(line);
  }

  lemma SingleSegment(line: string)
    requires SplitCode(line) == [Text(line)]
    ensures FormatLine(line) == [RenderText(line)]
  {
    assert FormatLine(line)[0] == RenderText(line);
  }

  // ---------------------------------------------------------------------------
  // The class list of a part (:104-113)
  // ---------------------------------------------------------------------------

  /** The part's style class names, the unused ones dropped, joined by spaces. */
  function ClassName(p: Part): (c: string)
    ensures c == "" <==> !p.bold && !p.italic && !p.strike && !p.underline
  {
    var names := [if p.bold then "font-bold" else "", if p.italic then "italic" else "",
                  if p.strike then "line-through" else "", if p.underline then "underline" else ""];
    var kept := KeepNonEmpty(names);
    JoinNonEmpty(kept, " ");
    assert names[0] == [] <==> !p.bold;
    assert names[1] == [] <==> !p.italic;
    assert names[2] == [] <==> !p.strike;
    assert names[3] == [] <==> !p.underline;
    Join(kept, " ")
  }

  /** `className || undefined`: a part without styles gets no class attribute. */
  function SpanClass(p: Part): Option<string> {
    var c := ClassName(p);
    if c == "" then None else Some(c)
  }

  /** Plain text gets no class; `***x***` gets both bold and italic. */
  lemma SpanClasses(t: Token)
    ensures SpanClass(ToPart(t)).None? <==> t.Plain?
    ensures t.Emph? && t.marker == TripleStar ==> SpanClass(ToPart(t)) == Some("font-bold italic")
  {
    ToPartStyles(t);
    if t.Emph? && t.marker == TripleStar {
      BoldItalicClass(t.body);
    }
  }

  lemma BoldItalicClass(x: string)
    ensures ClassName(Part(x, true, true, false, false)) == "font-bold italic"
  {
    var names: seq<string> := ["font-bold", "italic", "", ""];
    assert names[1..][1..][1..][1..] == [];
    assert KeepNonEmpty(names[1..][1..][1..]) == [];
    assert KeepNonEmpty(names[1..][1..]) == [];
    assert KeepNonEmpty(names[1..]) == ["italic"];
    var kept: seq<string> := ["font-bold", "italic"];
    assert KeepNonEmpty(names) == kept;
    assert Join(kept[1..], " ") == "italic";
    assert Join(kept, " ") == "font-bold" + " " + "italic";
  }

  // ---------------------------------------------------------------------------
  // Lines (:123-133)
  // ---------------------------------------------------------------------------

  /** The text rendered for an empty line: one no-break space. */
  const Placeholder: string := "\U{A0}"

  datatype Paragraph = Formatted(inlines: seq<Inline>) | Filler(text: string)

  function RenderLine(line: string): Paragraph {
    if line == "" then Filler(Placeholder) else Formatted(FormatLine(line))
  }

  /** One paragraph per line of `content`. */
  function Paragraphs(content: string): seq<Paragraph> {
    var lines := Split(content, '\n');
    seq(|lines|, k requires 0 <= k < |lines| => RenderLine(lines[k]))
  }

  /** One line of the component's body: the placeholder for an empty line, `formatText(line)` otherwise. */
  method RenderLineOf(line: string) returns (paragraph: Paragraph)
    ensures paragraph == RenderLine(line)
  {
    if line == "" {
      paragraph := Filler(Placeholder);
    } else {
      var inlines := FormatText(line);
      paragraph := Formatted(inlines);
    }
  }

  /** The component's body: split the content on newlines and render each line. */
  method Render(content: string) returns (paragraphs: seq<Paragraph>)
    ensures paragraphs == Paragraphs(content)
  {
    var lines := Split(content, '\n');
    paragraphs := [];
    for idx := 0 to |lines|
      invariant |paragraphs| == idx
      invariant forall k :: 0 <= k < idx ==> paragraphs[k] == RenderLine(lines[k])
    {
      var paragraph := RenderLineOf(lines[idx]);
      paragraphs := paragraphs + [paragraph];
    }
  }

  /**
   * There is one paragraph per line, one more than there are newlines; the
   * lines joined by newlines are the content; a paragraph is the placeholder
   * exactly when its line is empty, and otherwise the formatted line.
   */
  lemma ParagraphsPerLine(content: string)
    ensures |Paragraphs(content)| == multiset(content)['\n'] + 1
    ensures Join(Split(content, '\n'), "\n") == content
    ensures forall k :: 0 <= k < |Paragraphs(content)| ==>
              && (Paragraphs(content)[k].Filler? <==> Split(content, '\n')[k] == "")
              && (Paragraphs(content)[k].Filler? ==> Paragraphs(content)[k].text == "\U{A0}")
              && (Paragraphs(content)[k].Formatted? ==> Paragraphs(content)[k].inlines == FormatLine(Split(content, '\n')[k]))
  {
  }
}

=== FILE: InlineCode.dfy ===
/**
 * The first pass of `formatText` in the `FormattedText` component: a line is cut
 * into inline-code spans and text by the global regex /`([^`]+)`/g.
 *
 * The regex is modelled in three layers: a ghost predicate saying when it
 * matches `line[i..e]`, a compiled function computing the match at one index
 * (proved to agree with the predicate), and the leftmost search `exec` performs
 * from `lastIndex`. The source's `while (regex.exec(...))` loop is a method
 * proved equal to a specification function, and the lemmas characterise that
 * function: it is lossless and its segments are well formed.
 */
module InlineCode {
  import opened Optional
  import opened Strings
  import opened Sequences

  datatype Segment = Code(content: string) | Text(content: string)

  /** The characters of the line a segment stands for: code is re-wrapped in backticks. */
  function SegmentSource(seg: Segment): string {
    match seg
    case Code(c) => "`" + c + "`"
    case Text(t) => t
  }

  function SegmentsSource(segs: seq<Segment>): string
    decreases |segs|
  {
    if segs == [] then "" else SegmentSource(segs[0]) + SegmentsSource(segs[1..])
  }

  /** The regex /`([^`]+)`/ matches exactly `line[i..e]`. */
  ghost predicate IsCodeSpan(line: string, i: nat, e: nat) {
    && i + 3 <= e <= |line| && line[i] == '`' && line[e - 1] == '`'
    && forall k :: i < k < e - 1 ==> line[k] != '`'
  }

  /** The end of the code span that begins at `i`, if one does. */
  function CodeSpanAt(line: string, i: nat): (r: Option<nat>)
    ensures r.Some? ==> i + 3 <= r.value <= |line|
  {
    if i < |line| && line[i] == '`' then
      var j := FindChar(line, '`', i + 1);
      if i + 1 < j < |line| then Some(j + 1) else None
    else None
  }

  /** `CodeSpanAt` finds exactly the regex's match at `i`; there is at most one. */
  lemma CodeSpanAtIsMatch(line: string, i: nat)
    ensures CodeSpanAt(line, i).Some? ==> IsCodeSpan(line, i, CodeSpanAt(line, i).value)
    ensures forall e: nat :: IsCodeSpan(line, i, e) ==> CodeSpanAt(line, i) == Some(e)
  {
    forall e: nat | IsCodeSpan(line, i, e)
      ensures CodeSpanAt(line, i) == Some(e)
    {
      var j := FindChar(line, '`', i + 1);
      assert j == e - 1;
    }
  }

  /** No code span begins at an index in [a, b). */
  predicate NoCodeSpanIn(line: string, a: nat, b: nat)
    decreases b - a
  {
    a >= b || (CodeSpanAt(line, a).None? && NoCodeSpanIn(line, a + 1, b))
  }

  /** `NoCodeSpanIn` says that the regex matches nowhere in [a, b). */
  lemma {:induction false} NoCodeSpanInMeans(line: string, a: nat, b: nat)
    ensures NoCodeSpanIn(line, a, b) <==> forall q: nat, e: nat :: a <= q < b ==> !IsCodeSpan(line, q, e)
    decreases b - a
  {
    if a < b {
      NoCodeSpanInMeans(line, a + 1, b);
      CodeSpanAtIsMatch(line, a);
    }
  }

  lemma {:induction false} NoCodeSpanInAt(line: string, a: nat, b: nat, q: nat)
    requires NoCodeSpanIn(line, a, b) && a <= q < b
    ensures CodeSpanAt(line, q).None?
    decreases b - a
  {
    if a < q {
      NoCodeSpanInAt(line, a + 1, b, q);
    }
  }

  datatype Span = Span(start: nat, end: nat)

  /** `inlineCodeRegex.exec(line)` with `lastIndex == from`: the code span found by scanning from `from`. */
  function NextCodeSpan(line: string, from: nat): (r: Option<Span>)
    requires from <= |line|
    ensures r.Some? ==> from <= r.value.start && r.value.start + 3 <= r.value.end <= |line|
    decreases |line| - from
  {
    if from == |line| then None
    else match CodeSpanAt(line, from)
      case Some(e) => Some(Span(from, e))
      case None => NextCodeSpan(line, from + 1)
  }

  /** `NextCodeSpan` is the leftmost match at or after `from`, and `None` exactly when there is none. */
  lemma {:induction false} NextCodeSpanIsLeftmost(line: string, from: nat)
    requires from <= |line|
    ensures var r := NextCodeSpan(line, from);
            && (r.Some? ==> CodeSpanAt(line, r.value.start) == Some(r.value.end) && NoCodeSpanIn(line, from, r.value.start))
            && (r.None? ==> NoCodeSpanIn(line, from, |line|))
    decreases |line| - from
  {
    if from < |line| && CodeSpanAt(line, from).None? {
      NextCodeSpanIsLeftmost(line, from + 1);
    }
  }

  /** Scanning from `from` skips a stretch in which no match begins. */
  lemma {:induction false} NextCodeSpanSkips(line: string, from: nat, p: nat)
    requires from <= p <= |line| && NoCodeSpanIn(line, from, p)
    ensures NextCodeSpan(line, from) == NextCodeSpan(line, p)
    decreases p - from
  {
    if from < p {
      NextCodeSpanSkips(line, from + 1, p);
    }
  }

  /** One step of a scan: the segment emitted at a position, and the position after it. */
  datatype Step = Step(seg: Segment, next: nat)

  /**
   * The segment the first loop of `formatText` emits at `from`: the text up to
   * the next match, or the match itself when it starts at `from`, or the rest
   * of the line when no match is left.
   */
  function CodeStep(line: string, from: nat): (r: Step)
    requires from < |line|
    ensures from < r.next <= |line|
  {
    match NextCodeSpan(line, from)
    case None => Step(Text(line[from..]), |line|)
    case Some(m) =>
      if from < m.start then Step(Text(line[from .. m.start]), m.start)
      else Step(Code(line[from + 1 .. m.end - 1]), m.end)
  }

  /** What the first loop of `formatText` pushes for `line[from..]` (`lastIdx == from`). */
  function ScanCode(line: string, from: nat): seq<Segment>
    requires from <= |line|
    decreases |line| - from
  {
    if from == |line| then []
    else
      var step := CodeStep(line, from);
      [step.seg] + ScanCode(line, step.next)
  }

  /** The segments of `formatText(line)`, including the fallback for an empty result. */
  function SplitCode(line: string): seq<Segment> {
    var segs := ScanCode(line, 0);
    if segs == [] then [Text(line)] else segs
  }

  /** One round of the loop: the text before the next match, if any, then the match. */
  lemma ScanCodeRound(line: string, from: nat)
    requires from <= |line| && NextCodeSpan(line, from).Some?
    ensures var m := NextCodeSpan(line, from).value;
            && (from < m.start ==> ScanCode(line, from) == [Text(line[from .. m.start])] + ScanCode(line, m.start))
            && ScanCode(line, m.start) == [Code(line[m.start + 1 .. m.end - 1])] + ScanCode(line, m.end)
  {
    var m := NextCodeSpan(line, from).value;
    NextCodeSpanIsLeftmost(line, from);
    NextCodeSpanSkips(line, from, m.start);
  }

  /** After the last match, the scan is the rest of the line. */
  lemma ScanCodeRest(line: string, from: nat)
    requires from < |line| && NextCodeSpan(line, from).None?
    ensures ScanCode(line, from) == [Text(line[from..])]
  {
  }

  /** What one round of the loop pushes, followed by the scan after the match, is the scan before it. */
  lemma ScanCodeRoundPushed(line: string, from: nat, before: seq<Segment>, after: seq<Segment>)
    requires from <= |line| && NextCodeSpan(line, from).Some?
    requires var m := NextCodeSpan(line, from).value;
             after == before + (if from < m.start then [Text(line[from .. m.start])] else [])
                      + [Code(line[m.start + 1 .. m.end - 1])]
    ensures before + ScanCode(line, from) == after + ScanCode(line, NextCodeSpan(line, from).value.end)
  {
    var m := NextCodeSpan(line, from).value;
    ScanCodeRound(line, from);
    if from < m.start {
      PushedGapAndMatch(before, after, Text(line[from .. m.start]), Code(line[m.start + 1 .. m.end - 1]),
                       ScanCode(line, from), ScanCode(line, m.start), ScanCode(line, m.end));
    } else {
      PushedMatch(before, after, Code(line[m.start + 1 .. m.end - 1]), ScanCode(line, from), ScanCode(line, m.end));
    }
  }

  /** The first loop of `formatText` (FormattedText.tsx:11-30), with the fallback of :28-30. */
  method SplitCodeSpans(text: string) returns (segments: seq<Segment>)
    ensures segments == SplitCode(text)
  {
    segments := [];
    var lastIdx := 0;
    var found := NextCodeSpan(text, lastIdx);
    ghost var total := ScanCode(text, 0);
    while found.Some?
      invariant lastIdx <= |text|
      invariant found == NextCodeSpan(text, lastIdx)
      invariant segments + ScanCode(text, lastIdx) == total
      decreases |text| - lastIdx
    {
      var m := found.value;
      ghost var before := segments;
      if m.start > lastIdx {
        segments := segments + [Text(text[lastIdx .. m.start])];
      }
      segments := segments + [Code(text[m.start + 1 .. m.end - 1])];
      ScanCodeRoundPushed(text, lastIdx, before, segments);
      lastIdx := m.end;
      found := NextCodeSpan(text, lastIdx);
    }
    if lastIdx < |text| {
      ScanCodeRest(text, lastIdx);
      segments := segments + [Text(text[lastIdx..])];
    }
    if |segments| == 0 {
      segments := [Text(text)];
    }
  }

  /**
   * A text segment emitted at `from` is the stretch of the line up to the next
   * match, or to the end of the line, and no match begins inside it.
   */
  lemma CodeStepText(line: string, from: nat)
    requires from < |line|
    ensures var step := CodeStep(line, from);
            step.seg.Text? ==>
              && step.seg.content == line[from .. step.next]
              && NoCodeSpanIn(line, from, step.next)
              && (step.next == |line| || CodeSpanAt(line, step.next).Some?)
  {
    NextCodeSpanIsLeftmost(line, from);
    assert line[from .. |line|] == line[from..];
  }

  /** A code segment emitted at `from` is the inside of the regex's match at `from`. */
  lemma CodeStepCode(line: string, from: nat)
    requires from < |line|
    ensures var step := CodeStep(line, from);
            step.seg.Code? ==> IsCodeSpan(line, from, step.next) && step.seg.content == line[from + 1 .. step.next - 1]
  {
    NextCodeSpanIsLeftmost(line, from);
    CodeSpanAtIsMatch(line, from);
  }

  /** The step at `from` stands for exactly the characters it passes over. */
  lemma CodeStepSource(line: string, from: nat)
    requires from < |line|
    ensures line[from .. CodeStep(line, from).next] == SegmentSource(CodeStep(line, from).seg)
  {
    CodeStepText(line, from);
    CodeStepCode(line, from);
    if CodeStep(line, from).seg.Code? {
      SliceWrapped(line, from, CodeStep(line, from).next);
    }
  }

  /** The step at `from` emits a non-empty segment, and a code segment without a backtick. */
  lemma CodeStepWellFormed(line: string, from: nat)
    requires from < |line|
    ensures var seg := CodeStep(line, from).seg;
            seg.content != [] && (seg.Code? ==> '`' !in seg.content)
  {
    CodeStepText(line, from);
    CodeStepCode(line, from);
    var step := CodeStep(line, from);
    if step.seg.Code? {
      forall k | 0 <= k < |step.seg.content|
        ensures step.seg.content[k] != '`'
      {
        assert step.seg.content[k] == line[from + 1 + k];
      }
    }
  }

  /** A text segment that stops before the end of the line is followed by code. */
  lemma CodeStepTextThenCode(line: string, from: nat)
    requires from < |line|
    requires CodeStep(line, from).seg.Text? && CodeStep(line, from).next < |line|
    ensures CodeStep(line, CodeStep(line, from).next).seg.Code?
  {
    CodeStepText(line, from);
  }

  /** A non-empty scan is its first step followed by the scan after it. */
  lemma ScanCodeUnfold(line: string, from: nat)
    requires from < |line|
    ensures var step := CodeStep(line, from);
            && ScanCode(line, from) != []
            && ScanCode(line, from)[0] == step.seg
            && ScanCode(line, from)[1..] == ScanCode(line, step.next)
  {
    var step := CodeStep(line, from);
    assert ([step.seg] + ScanCode(line, step.next))[1..] == ScanCode(line, step.next);
  }

  /** The scan is lossless: re-wrapping its code segments in backticks gives back `line[from..]`. */
  lemma {:induction false} ScanCodeSource(line: string, from: nat)
    requires from <= |line|
    ensures SegmentsSource(ScanCode(line, from)) == line[from..]
    decreases |line| - from
  {
    if from < |line| {
      var next := CodeStep(line, from).next;
      ScanCodeSource(line, next);
      CodeStepSource(line, from);
      ScanCodeUnfold(line, from);
      SegmentsSourceCons(line, from, next, ScanCode(line, from));
    }
  }

  lemma SegmentsSourceCons(line: string, from: nat, next: nat, segs: seq<Segment>)
    requires segs != [] && from <= next <= |line| && line[from .. next] == SegmentSource(segs[0])
    requires SegmentsSource(segs[1..]) == line[next..]
    ensures SegmentsSource(segs) == line[from..]
  {
    SliceSplit(line, from, next);
  }

  /** Code segments are non-empty and free of backticks, text segments are non-empty, no two text segments touch. */
  ghost predicate WellFormedSegments(segs: seq<Segment>) {
    && (forall k :: 0 <= k < |segs| ==> segs[k].content != [])
    && (forall k :: 0 <= k < |segs| && segs[k].Code? ==> '`' !in segs[k].content)
    && (forall k :: 0 <= k < |segs| - 1 ==> segs[k].Code? || segs[k + 1].Code?)
  }

  lemma WellFormedSegmentsCons(segs: seq<Segment>)
    requires segs != [] && segs[0].content != [] && (segs[0].Code? ==> '`' !in segs[0].content)
    requires WellFormedSegments(segs[1..])
    requires |segs| > 1 && segs[0].Text? ==> segs[1..][0].Code?
    ensures WellFormedSegments(segs)
  {
    var rest := segs[1..];
    forall k | 0 < k < |segs|
      ensures segs[k] == rest[k - 1]
    {
    }
  }

  lemma {:induction false} ScanCodeWellFormed(line: string, from: nat)
    requires from <= |line|
    ensures WellFormedSegments(ScanCode(line, from))
    decreases |line| - from
  {
    if from < |line| {
      var next := CodeStep(line, from).next;
      ScanCodeWellFormed(line, next);
      CodeStepWellFormed(line, from);
      ScanCodeUnfold(line, from);
      if next < |line| {
        ScanCodeUnfold(line, next);
        if CodeStep(line, from).seg.Text? {
          CodeStepTextThenCode(line, from);
        }
      }
      WellFormedSegmentsCons(ScanCode(line, from));
    }
  }

  /** The code-span split is lossless: re-wrapping code in backticks gives the line back. */
  lemma SplitCodeLossless(line: string)
    ensures SegmentsSource(SplitCode(line)) == line
  {
    ScanCodeSource(line, 0);
    assert line[0..] == line;
  }

  /**
   * For a non-empty line: code segments are non-empty and contain no backtick,
   * text segments are non-empty, no two text segments are adjacent. The empty
   * line gives one empty text segment.
   */
  lemma SplitCodeWellFormed(line: string)
    ensures line != [] ==> WellFormedSegments(SplitCode(line))
    ensures line == [] ==> SplitCode(line) == [Text("")]
  {
    if line != [] {
      ScanCodeWellFormed(line, 0);
      ScanCodeUnfold(line, 0);
    }
  }

  /**
   * A line is one text segment equal to itself exactly when the regex matches
   * nowhere in it; in particular when it contains no backtick.
   */
  lemma SplitCodePlain(line: string)
    ensures SplitCode(line) == [Text(line)] <==> NoCodeSpanIn(line, 0, |line|)
    ensures '`' !in line ==> SplitCode(line) == [Text(line)]
  {
    if NoCodeSpanIn(line, 0, |line|) {
      NoMatchSplitsPlain(line);
    }
    if SplitCode(line) == [Text(line)] {
      PlainSplitHasNoMatch(line);
    }
    if '`' !in line {
      NoBacktickNoCodeSpan(line, 0);
      NoMatchSplitsPlain(line);
    }
  }

  lemma NoMatchSplitsPlain(line: string)
    requires NoCodeSpanIn(line, 0, |line|)
    ensures SplitCode(line) == [Text(line)]
  {
    if line != [] {
      NextCodeSpanSkips(line, 0, |line|);
      ScanCodeRest(line, 0);
      assert line[0..] == line;
    }
  }

  lemma PlainSplitHasNoMatch(line: string)
    requires SplitCode(line) == [Text(line)]
    ensures NoCodeSpanIn(line, 0, |line|)
  {
    if line != [] {
      ScanCodeUnfold(line, 0);
      CodeStepText(line, 0);
    }
  }

  lemma {:induction false} NoBacktickNoCodeSpan(line: string, a: nat)
    requires '`' !in line
    ensures NoCodeSpanIn(line, a, |line|)
    decreases |line| - a
  {
    if a < |line| {
      assert line[a] in line;
      NoBacktickNoCodeSpan(line, a + 1);
    }
  }
}

=== FILE: Optional.dfy ===
/** The optional value used for regex results, nullable fields and dictionary lookups. */
module Optional {
  datatype Option<+T> = None | Some(value: T)
}

=== FILE: Sequences.dfy ===
/**
 * Facts about appending to a sequence whose continuation is known, shared by
 * the `exec` loops of the three scanning passes: each round pushes the text
 * before a match (if any) and the match, and the scan from the old position is
 * what was pushed followed by the scan from the new one.
 */
module Sequences {
  /** Pushing onto a list whose continuation is known. */
  lemma PushThenRest<T>(done: seq<T>, x: T, rest: seq<T>)
    ensures done + [x] + rest == done + ([x] + rest)
  {
  }

  /** A round that pushes the gap before a match and then the match. */
  lemma PushedGapAndMatch<T>(before: seq<T>, after: seq<T>, gap: T, match_: T,
                             scan: seq<T>, mid: seq<T>, rest: seq<T>)
    requires after == before + [gap] + [match_]
    requires scan == [gap] + mid && mid == [match_] + rest
    ensures before + scan == after + rest
  {
    PushThenRest(before, gap, [match_] + rest);
    PushThenRest(before + [gap], match_, rest);
  }

  /** A round whose match starts right where the previous one ended. */
  lemma PushedMatch<T>(before: seq<T>, after: seq<T>, match_: T, scan: seq<T>, rest: seq<T>)
    requires after == before + [] + [match_] && scan == [match_] + rest
    ensures before + scan == after + rest
  {
    PushThenRest(before, match_, rest);
  }
}

=== FILE: Strings.dfy ===
/**
 * String helpers: JavaScript's `trim`, `split` and `filter(Boolean)`, Python's
 * `in`, `lower` and `join`, and the character search the regex matchers use.
 * Strings are sequences of characters.
 */
module Strings {

  /** Index of the first `c` in `s` at or after `from`, or `|s|` when there is none. */
  function FindChar(s: string, c: char, from: nat): (j: nat)
    requires from <= |s|
    ensures from <= j <= |s|
    ensures j < |s| ==> s[j] == c
    ensures forall k :: from <= k < j ==> s[k] != c
    decreases |s| - from
  {
    if from == |s| || s[from] == c then from else FindChar(s, c, from + 1)
  }

  /** A suffix is the slice up to `j` followed by the suffix from `j`. */
  lemma SliceSplit(s: string, i: nat, j: nat)
    requires i <= j <= |s|
    ensures s[i..] == s[i .. j] + s[j..]
  {
  }

  /** A slice cut at two inner points. */
  lemma SliceThree(s: string, i: nat, j: nat, k: nat, l: nat)
    requires i <= j <= k <= l <= |s|
    ensures s[i .. l] == s[i .. j] + s[j .. k] + s[k .. l]
  {
  }

  /** A slice of at least two characters is its first character, its inside and its last character. */
  lemma SliceWrapped(s: string, i: nat, e: nat)
    requires i + 2 <= e <= |s|
    ensures s[i .. e] == [s[i]] + s[i + 1 .. e - 1] + [s[e - 1]]
  {
  }

  /** `s` holds `p` starting at index `i`. */
  predicate StartsWithAt(s: string, i: nat, p: string) {
    i + |p| <= |s| && s[i .. i + |p|] == p
  }

  /** `sub` occurs somewhere in `s` (Python's `sub in s`). */
  predicate Contains(s: string, sub: string) {
    exists i :: 0 <= i <= |s| - |sub| && StartsWithAt(s, i, sub)
  }

  lemma {:induction false} ContainsTransitive(s: string, mid: string, sub: string)
    requires Contains(s, mid) && Contains(mid, sub)
    ensures Contains(s, sub)
  {
    var i :| 0 <= i <= |s| - |mid| && StartsWithAt(s, i, mid);
    var j :| 0 <= j <= |mid| - |sub| && StartsWithAt(mid, j, sub);
    assert mid == s[i .. i + |mid|];
    forall k | 0 <= k < |sub|
      ensures s[i + j + k] == sub[k]
    {
      assert sub[k] == mid[j + k];
    }
    assert s[i + j .. i + j + |sub|] == sub;
    assert StartsWithAt(s, i + j, sub);
  }

  // ---------------------------------------------------------------------------
  // JavaScript String.prototype.trim
  // ---------------------------------------------------------------------------

  /**
   * ECMAScript WhiteSpace and LineTerminator code points: tab, vertical tab,
   * form feed, space, no-break space, zero width no-break space, the Space_Separator
   * category, line feed, carriage return, line and paragraph separators.
   */
  predicate IsJsWhitespace(c: char) {
    c == '\t' || c == '\U{B}' || c == '\U{C}' || c == ' ' || c == '\U{A0}' || c == '\U{FEFF}'
    || c == '\U{1680}' || ('\U{2000}' <= c <= '\U{200A}') || c == '\U{202F}' || c == '\U{205F}'
    || c == '\U{3000}' || c == '\n' || c == '\r' || c == '\U{2028}' || c == '\U{2029}'
  }

  predicate AllJsWhitespace(s: string) {
    forall k :: 0 <= k < |s| ==> IsJsWhitespace(s[k])
  }

  /** Index of the first non-whitespace character of `s` at or after `a`, or `|s|` when there is none. */
  function SkipWhitespace(s: string, a: nat): (b: nat)
    requires a <= |s|
    ensures a <= b <= |s|
    ensures forall k :: a <= k < b ==> IsJsWhitespace(s[k])
    ensures b < |s| ==> !IsJsWhitespace(s[b])
    decreases |s| - a
  {
    if a < |s| && IsJsWhitespace(s[a]) then SkipWhitespace(s, a + 1) else a
  }

  /** Index just after the last non-whitespace character of `s[a..e]`, or `a` when there is none. */
  function SkipWhitespaceBack(s: string, a: nat, e: nat): (b: nat)
    requires a <= e <= |s|
    ensures a <= b <= e
    ensures forall k :: b <= k < e ==> IsJsWhitespace(s[k])
    ensures a < b ==> !IsJsWhitespace(s[b - 1])
    decreases e
  {
    if a < e && IsJsWhitespace(s[e - 1]) then SkipWhitespaceBack(s, a, e - 1) else e
  }

  /**
   * `s.trim()`: what is left of `s` between its leading and its trailing
   * whitespace. The result is a slice of `s`, everything cut off is whitespace,
   * and the result neither starts nor ends with whitespace.
   */
  function Trim(s: string): (r: string)
    ensures exists a :: 0 <= a <= |s| - |r| && r == s[a .. a + |r|]
                        && AllJsWhitespace(s[..a]) && AllJsWhitespace(s[a + |r| ..])
    ensures r != [] ==> !IsJsWhitespace(r[0]) && !IsJsWhitespace(r[|r| - 1])
    ensures r == [] <==> AllJsWhitespace(s)
  {
    var a := SkipWhitespace(s, 0);
    var b := SkipWhitespaceBack(s, a, |s|);
    TrimmedSlice(s, a, b);
    s[a .. b]
  }

  /** Cutting the leading whitespace before `a` and the trailing whitespace from `b` leaves the trimmed string. */
  lemma TrimmedSlice(s: string, a: nat, b: nat)
    requires a <= b <= |s|
    requires forall k :: 0 <= k < a ==> IsJsWhitespace(s[k])
    requires a < |s| ==> !IsJsWhitespace(s[a])
    requires forall k :: b <= k < |s| ==> IsJsWhitespace(s[k])
    requires a < b ==> !IsJsWhitespace(s[b - 1])
    ensures AllJsWhitespace(s[..a]) && AllJsWhitespace(s[b..])
    ensures a < b ==> !IsJsWhitespace(s[a .. b][0]) && !IsJsWhitespace(s[a .. b][b - a - 1])
    ensures a == b <==> AllJsWhitespace(s)
  {
    if a == b && a < |s| {
      assert false;
    }
  }

  // ---------------------------------------------------------------------------
  // Python str.lower
  // ---------------------------------------------------------------------------

  function LowerChar(c: char): char {
    if 'A' <= c <= 'Z' then (c as int + 32) as char else c
  }

  /** `s.lower()`, restricted to the ASCII letters. */
  function Lower(s: string): (r: string)
    ensures |r| == |s|
    ensures forall k :: 0 <= k < |s| ==> r[k] == LowerChar(s[k])
  {
    if s == [] then [] else [LowerChar(s[0])] + Lower(s[1..])
  }

  // ---------------------------------------------------------------------------
  // JavaScript split on one character, Python str.join
  // ---------------------------------------------------------------------------

  /** `sep.join(parts)`. */
  function Join(parts: seq<string>, sep: string): string
  {
    if |parts| == 0 then ""
    else if |parts| == 1 then parts[0]
    else parts[0] + sep + Join(parts[1..], sep)
  }

  /** Joining non-empty strings gives the empty string only when there are none. */
  lemma JoinNonEmpty(parts: seq<string>, sep: string)
    requires forall k :: 0 <= k < |parts| ==> parts[k] != []
    ensures Join(parts, sep) == [] <==> parts == []
  {
    if |parts| > 1 {
      assert |Join(parts, sep)| >= |parts[0]|;
    }
  }

  /** `xs.filter(Boolean)` on strings: the non-empty ones, in order. */
  function KeepNonEmpty(xs: seq<string>): (r: seq<string>)
    ensures forall k :: 0 <= k < |r| ==> r[k] != []
    ensures r == [] <==> forall k :: 0 <= k < |xs| ==> xs[k] == []
    ensures forall x :: x in r <==> x in xs && x != []
    decreases |xs|
  {
    if xs == [] then []
    else
      var rest := KeepNonEmpty(xs[1..]);
      assert forall k :: 0 < k < |xs| ==> xs[k] == xs[1..][k - 1];
      if xs[0] == [] then rest else [xs[0]] + rest
  }

  /** One name is kept exactly when it is non-empty. */
  lemma KeepNonEmptySingle(x: string)
    ensures KeepNonEmpty([x]) == if x == [] then [] else [x]
  {
    assert [x][1..] == [];
  }

  /** Filtering distributes over concatenation, so the kept names keep their order and their count. */
  lemma {:induction false} KeepNonEmptyAppend(xs: seq<string>, ys: seq<string>)
    ensures KeepNonEmpty(xs + ys) == KeepNonEmpty(xs) + KeepNonEmpty(ys)
    decreases |xs|
  {
    if xs != [] {
      assert (xs + ys)[1..] == xs[1..] + ys;
      KeepNonEmptyAppend(xs[1..], ys);
    } else {
      assert xs + ys == ys;
    }
  }

  /**
   * `s.split(sep)` for a one-character separator: the pieces between the
   * separators, one more than there are separators, none containing it, and
   * joining them back with the separator gives `s`.
   */
  function Split(s: string, sep: char): (r: seq<string>)
    ensures |r| == multiset(s)[sep] + 1
    ensures forall k :: 0 <= k < |r| ==> sep !in r[k]
    ensures Join(r, [sep]) == s
    decreases |s|
  {
    var j := FindChar(s, sep, 0);
    if j == |s| then
      assert sep !in s;
      [s]
    else
      var rest := Split(s[j + 1 ..], sep);
      assert s == s[..j] + [sep] + s[j + 1 ..];
      assert multiset(s) == multiset(s[..j]) + multiset([sep]) + multiset(s[j + 1 ..]);
      assert sep !in s[..j];
      [s[..j]] + rest
  }
}
